=== FILE: README.md ===
# Talent-scout ranking core, modelled in Dafny

The application takes PDF résumés and has a language model extract a structured profile from each one. It then ranks the analysed candidates against a job's required skills and years of experience.

This project models that core as pure Dafny functions over immutable values. All I/O is turned into parameters.

- **`rank-candidates`** (`RankEngine`, `SkillMatch`, `Scoring`):
  - the request check and the job lookup;
  - the pool of analysed candidates, optionally limited to the requested ids;
  - the skill match, counted in both directions with case-insensitive containment;
  - the 60/40 match score with `Math.round`;
  - the recommendation fallback;
  - the abort when a recommendation call throws;
  - the upsert of every ranking keyed by (candidate id, job id), where a failed upsert is only logged.
- **`analyze-resume`** (`ResumeAnalysis`):
  - the storage key (`replace('resumes/', '')`);
  - the order of the failure checks;
  - the removal of a Markdown code fence from the model's reply;
  - the candidate update with its defaults (`'Unknown'`, status `'analyzed'`);
  - the skill rows (defaults `'Other'`, `'Intermediate'`) and the work-experience rows.
- **Job form** (`JobForm`):
  - adding a skill (trimmed, non-empty, not already listed) and removing one;
  - submit validation;
  - the inserted row (`description || null`, `parseInt` of the years);
  - resetting the form after a successful insert.
- **Rankings table** (`RankingsView`):
  - no query without a selected job;
  - rankings of the selected job, best score first;
  - score bands 80/60/40 and `match_score || 0`;
  - `#n` labels with a trophy on the first row;
  - skill lists cut to three badges plus a `+n` badge.
- **Résumé upload** (`ResumeUploadFlow`):
  - the type test comes before the 10 MiB size test;
  - the storage path `<id>/<time>_<name>`;
  - four steps (create, upload, record the path, request analysis), where the first failing step ends the run.

Support modules:
- `Text` models JavaScript's string operations: `includes`, `indexOf`, `trim` and `\s` over the ECMAScript white-space set, ASCII `toLowerCase`, first-occurrence `replace`, and `parseInt`.
- `Seqs` models order-preserving `filter` and `map`.
- `Wrappers` holds `Option` and `Result`.

The source comments the score as 0-100 (`supabase/functions/rank-candidates/index.ts:96`) but does not clamp it, so this model follows the code. Several candidate skills can match one required skill, so the skill share passes 60 whenever more candidate skills match than skills are required: `Scoring.ScoreCanExceedHundred` shows a score of 160. The bound of 100 is proved only when no more skills matched than were required (`Scoring.MatchScore`).

## Model

| member | source | states |
|---|---|---|
| `Seqs.Filter` | supabase/functions/rank-candidates/index.ts:82-87 | `filter` keeps exactly the elements that pass, in order, each as often as in the input |
| `Text.IncludesIffOccurs` | supabase/functions/rank-candidates/index.ts:84-85 | `includes` holds exactly when the pattern occurs at some index |
| `Text.Lower` | supabase/functions/rank-candidates/index.ts:84-85 | `toLowerCase` keeps the length and maps each character on its own |
| `Text.LowerIdempotent` | supabase/functions/rank-candidates/index.ts:84-85 | lower-casing twice is lower-casing once |
| `Text.Trim` | src/components/JobRequirements.tsx:50 | `trim` gives a contiguous slice of the input that neither starts nor ends with white space |
| `Text.TrimSurrounded` | supabase/functions/analyze-resume/index.ts:114 | trimming white space + a trimmed string + white space gives exactly the middle string |
| `Text.TrimTrimmed` | src/components/JobRequirements.tsx:50-51 | `trim` leaves an already trimmed string unchanged |
| `Text.RemoveFirst` | supabase/functions/analyze-resume/index.ts:38 | `replace` with a string pattern removes only the first occurrence and changes nothing when there is none |
| `Text.ParseInt` | src/components/JobRequirements.tsx:79 | `parseInt` of an empty or all-white-space string is NaN (null), and a negative result needs a leading "-" after the white space |
| `Text.ParseIntDecimal` | src/components/JobRequirements.tsx:79 | `parseInt` of a whole number's decimal rendering gives that number back |
| `Text.ParseIntTruncates` | src/components/JobRequirements.tsx:79 | `parseInt` drops a fractional part after the decimal point |
| `SkillMatch.MatchedSkills` | supabase/functions/rank-candidates/index.ts:82-87 | matched skills are the candidate's skills related to some required skill, in order, with duplicates kept |
| `SkillMatch.MissingSkills` | supabase/functions/rank-candidates/index.ts:89-94 | missing skills are the required skills that no candidate skill relates to, in order |
| `SkillMatch.RelatedSymmetric` | supabase/functions/rank-candidates/index.ts:84-85 | the skill relation tests containment both ways, so it does not depend on which side a skill is on |
| `SkillMatch.RelatedIgnoresCase` | supabase/functions/rank-candidates/index.ts:84-85 | lower-casing either skill first does not change whether they relate |
| `SkillMatch.RelatedIffOccurs` | supabase/functions/rank-candidates/index.ts:84-85 | every skill relates to itself, and two skills relate exactly when one lower-cased name occurs inside the other |
| `SkillMatch.MatchedSkillsExact` | supabase/functions/rank-candidates/index.ts:82-87 | any order-preserving selection with those multiplicities is the matched list |
| `SkillMatch.MissingSkillsExact` | supabase/functions/rank-candidates/index.ts:89-94 | any order-preserving selection with those multiplicities is the missing list |
| `SkillMatch.RequiredSkillPartition` | supabase/functions/rank-candidates/index.ts:82-94 | each required skill is either covered or missing, never both |
| `SkillMatch.RelatedCovered` | supabase/functions/rank-candidates/index.ts:82-94 | one related pair puts the candidate skill in the matched list and keeps the required skill out of the missing list |
| `SkillMatch.NoRequiredSkills` | supabase/functions/rank-candidates/index.ts:79-94 | with no required skills nothing is matched and nothing is missing |
| `SkillMatch.NoCandidateSkills` | supabase/functions/rank-candidates/index.ts:78-94 | a candidate without skills matches nothing and misses every required skill |
| `SkillMatch.EmptySkillMatchesEverything` | supabase/functions/rank-candidates/index.ts:82-94 | an empty skill name relates to every required skill, so nothing is missing |
| `SkillMatch.MatchedMayOutnumberRequired` | supabase/functions/rank-candidates/index.ts:82-87 | "Java" and "JavaScript" both match the single requirement "java" |
| `SkillMatch.PythonExample` | supabase/functions/rank-candidates/index.ts:82-94 | for skills Python and SQL against python and machine learning, Python is matched and machine learning is missing |
| `Scoring.ExperienceTerm` | supabase/functions/rank-candidates/index.ts:104-111 | the experience term lies in 0..40; it is 40 exactly when no years are required or the years agree; it is 0 when the candidate states none or the gap costs 40 points or more |
| `Scoring.ExperienceCloserIsBetter` | supabase/functions/rank-candidates/index.ts:105-107 | a smaller gap to the required years never earns less |
| `Scoring.ExperienceSymmetric` | supabase/functions/rank-candidates/index.ts:105-107 | too many and too few years by the same amount cost the same |
| `Scoring.ExperienceExample` | supabase/functions/rank-candidates/index.ts:104-108 | 3 years against 5 required earn 30 |
| `Scoring.ZeroYearsIsAbsent` | supabase/functions/rank-candidates/index.ts:104-111 | 0 years counts as not stated, on either side |
| `Scoring.RoundHalfUp` | supabase/functions/rank-candidates/index.ts:156 | `Math.round(n/d)` returns a whole number within half a unit of `n/d`, with a tie going up |
| `Scoring.RoundsHalfUpUnique` | supabase/functions/rank-candidates/index.ts:156 | at most one whole number lies within half a unit of `n/d` with a tie going up |
| `Scoring.RoundHalfUpSpec` | supabase/functions/rank-candidates/index.ts:156 | `Math.round(n/d)` is the one whole number within half a unit of `n/d` with a tie going up: it qualifies, and any whole number that qualifies equals it |
| `Scoring.RoundHalfUpMonotone` | supabase/functions/rank-candidates/index.ts:156 | rounding keeps order |
| `Scoring.RoundHalfUpNonNegative` | supabase/functions/rank-candidates/index.ts:156 | a value that is not negative rounds to a value that is not negative |
| `Scoring.RoundHalfUpAtMost` | supabase/functions/rank-candidates/index.ts:156 | a value of at most `bound` rounds to at most `bound` |
| `Scoring.SkillShareBounds` | supabase/functions/rank-candidates/index.ts:99-102 | the rounded skill share is at least 0, and at most 60 when no more skills matched than were required |
| `Scoring.Combine` | supabase/functions/rank-candidates/index.ts:96-111 | the score is not negative; it equals the experience term when no skills are required; it is at most 100 when matched ≤ required |
| `Scoring.CombineRounds` | supabase/functions/rank-candidates/index.ts:153-156 | the stored score is `(matched/required)·60 + experience` rounded half up, computed on exact rationals |
| `Scoring.MatchScore` | supabase/functions/rank-candidates/index.ts:77-111 | `match_score` is not negative, and is at most 100 when the matched list is no longer than the required list |
| `Scoring.CombineMonotone` | supabase/functions/rank-candidates/index.ts:99-102 | more matched skills never lower the score |
| `Scoring.NoRequirementsScoresForty` | supabase/functions/rank-candidates/index.ts:99-111 | a job with no skills and no years required scores every candidate 40 |
| `Scoring.PythonScoreExample` | supabase/functions/rank-candidates/index.ts:82-111 | one of two skills matched plus 3 of 5 years gives 60 |
| `Scoring.ScoreCanExceedHundred` | supabase/functions/rank-candidates/index.ts:96-111 | the score is not clamped: two skills matching one requirement score 160 |
| `RankEngine.Pool` | supabase/functions/rank-candidates/index.ts:46-57 | the pool is the analysed candidates, restricted to the requested ids when that list is non-empty, in table order |
| `RankEngine.Recommendation` | supabase/functions/rank-candidates/index.ts:144-151 | the reply's content when the call was ok and the content is non-empty, otherwise the fixed Arabic fallback |
| `RankEngine.RankOne` | supabase/functions/rank-candidates/index.ts:153-160 | a record carries the candidate's id, the job id and the recommendation; its matched skills are exactly the candidate skills relating to a requirement and its missing skills exactly the uncovered requirements; the score is not negative, and at most 100 when matched ≤ required |
| `RankEngine.RankPool` | supabase/functions/rank-candidates/index.ts:77-161 | the loop fails exactly when some recommendation call throws; otherwise it gives one ranking per pool candidate, in order |
| `RankEngine.RankedKeys` | supabase/functions/rank-candidates/index.ts:153-155 | every ranking carries its candidate's id and the job's id |
| `RankEngine.LatestWrite` | supabase/functions/rank-candidates/index.ts:164-174 | the write a batch leaves under a key is a successful ranking of the batch with that key |
| `RankEngine.LatestWriteFront` | supabase/functions/rank-candidates/index.ts:164-174 | a later write to a key overrides an earlier one |
| `RankEngine.UpsertAll` | supabase/functions/rank-candidates/index.ts:164-174 | after the loop each key holds its last successful write, or what it held before; failed upserts change nothing |
| `RankEngine.UpsertAllIdempotent` | supabase/functions/rank-candidates/index.ts:164-174 | upserting the same batch twice gives the same table as once |
| `RankEngine.UpsertAllOtherKeys` | supabase/functions/rank-candidates/index.ts:164-174 | keys outside the batch keep their record, or their absence |
| `RankEngine.LatestWriteDistinct` | supabase/functions/rank-candidates/index.ts:164-174 | with distinct keys, every successful upsert leaves its own record |
| `RankEngine.Rank` | supabase/functions/rank-candidates/index.ts:15-193 | the errors come in source order: missing id, unknown job, failed candidate query, then a throwing recommendation call; "no candidates" happens exactly when the pool is empty; a run with none of these conditions is ranked; nothing is stored unless the run is ranked, so a failure or "no candidates" leaves the store as it was; a successful response holds one ranking per pool candidate, each the candidate's ranking in pool order, and the store is the one after the upserts |
| `RankEngine.ResponseIgnoresUpsertFailures` | supabase/functions/rank-candidates/index.ts:164-181 | failed upserts do not change the response |
| `RankEngine.RerunGivesSameAssessment` | supabase/functions/rank-candidates/index.ts:77-160 | runs over the same job and candidates agree on every score and skill list, whatever the replies and the earlier rankings |
| `RankEngine.FailedRepliesStillRanked` | supabase/functions/rank-candidates/index.ts:144-160 | when no call on a pool candidate throws, every candidate is ranked, and a failed or empty reply gives the fallback text |
| `RankEngine.RankedCandidatesEligible` | supabase/functions/rank-candidates/index.ts:46-57 | every ranked candidate is analysed and, when ids were requested, one of them |
| `RankEngine.StoreAfterRank` | supabase/functions/rank-candidates/index.ts:164-174 | with distinct candidate ids, each successful upsert is stored under (candidate id, job id), and other keys are untouched |
| `RankEngine.PoolIdsDistinct` | supabase/functions/rank-candidates/index.ts:46-57 | selecting from candidates with distinct ids keeps the ids distinct |
| `ResumeAnalysis.StripClosingFence` | supabase/functions/analyze-resume/index.ts:116 | `/\s*```$/` removes a final fence together with the white space before it, and nothing else |
| `ResumeAnalysis.Unfence` | supabase/functions/analyze-resume/index.ts:115-119 | a reply that does not open with a fence is left alone; otherwise the result is a piece of the reply, and it is trimmed when the reply is |
| `ResumeAnalysis.StripOpening` | supabase/functions/analyze-resume/index.ts:116-118 | removing an opening fence, the white space after it and a final fence leaves a piece of the text after the opening fence, trimmed when the reply is |
| `ResumeAnalysis.CleanContent` | supabase/functions/analyze-resume/index.ts:114-119 | the cleaned content is a piece of the reply with no white space at either end |
| `ResumeAnalysis.UnfenceJsonOpening` | supabase/functions/analyze-resume/index.ts:115-116 | after "```json" and any white space, the rest is kept up to a final fence, whether or not the closing fence is present |
| `ResumeAnalysis.UnfenceBareOpening` | supabase/functions/analyze-resume/index.ts:117-118 | likewise after a bare "```" that does not begin "```json" |
| `ResumeAnalysis.UnclosedJsonFence` | supabase/functions/analyze-resume/index.ts:114-119 | a reply whose closing fence is missing keeps everything after the opening fence: "```json\n{" cleans to "{" |
| `ResumeAnalysis.CleanUnfenced` | supabase/functions/analyze-resume/index.ts:114-119 | content that does not open with a fence is only trimmed |
| `ResumeAnalysis.CleanJsonFenced` | supabase/functions/analyze-resume/index.ts:114-116 | a trimmed body inside "```json" … "```", with any white space around, cleans back to the body |
| `ResumeAnalysis.CleanBareFenced` | supabase/functions/analyze-resume/index.ts:117-118 | likewise for a bare "```" fence followed by white space |
| `ResumeAnalysis.CleanJsonBlock` | supabase/functions/analyze-resume/index.ts:114-119 | "```json\n" + body + "\n```" cleans back to the body |
| `ResumeAnalysis.StorageKey` | supabase/functions/analyze-resume/index.ts:38 | the key is the URL with at most one "resumes/" removed |
| `ResumeAnalysis.StorageKeyOfBucketUrl` | supabase/functions/analyze-resume/index.ts:38 | a URL that starts with "resumes/" loses exactly that prefix |
| `ResumeAnalysis.CandidateUpdateOf` | supabase/functions/analyze-resume/index.ts:130-143 | the name is never empty ('Unknown' when absent), the status is 'analyzed', and the other fields are copied |
| `ResumeAnalysis.SkillRows` | supabase/functions/analyze-resume/index.ts:151-157 | one row per parsed skill, in order, with category 'Other' and proficiency 'Intermediate' when absent or empty |
| `ResumeAnalysis.ExperienceRows` | supabase/functions/analyze-resume/index.ts:169-177 | one row per work experience, with its fields copied |
| `ResumeAnalysis.Inserts` | supabase/functions/analyze-resume/index.ts:150-186 | one skill batch is inserted exactly when the parsed skill list is present and non-empty, and one work-experience batch likewise; skills come first, so there is one insert per such list and nothing else |
| `ResumeAnalysis.Analyze` | supabase/functions/analyze-resume/index.ts:15-194 | a missing URL does nothing; the download comes first; each failure holds exactly under its condition, in source order: download, model status, empty content, parse, candidate update; a run that passes every step succeeds with the parsed résumé; only an update failure leaves a write behind, and that write is the candidate update of the parsed résumé; a successful update is followed by the inserts |
| `JobForm.AddSkill` | src/components/JobRequirements.tsx:49-54 | the trimmed skill is appended and the input cleared only when it is non-empty and new; otherwise nothing changes |
| `JobForm.RemoveSkill` | src/components/JobRequirements.tsx:56-58 | every entry equal to the skill goes; the others keep their order and count; no other field changes |
| `JobForm.ApplyKeepsSkillsWellFormed` | src/components/JobRequirements.tsx:49-58 | one edit keeps the list free of empty, untrimmed and repeated entries |
| `JobForm.EditsKeepSkillsWellFormed` | src/components/JobRequirements.tsx:49-58 | any sequence of edits keeps it so |
| `JobForm.ReachableSkillsWellFormed` | src/components/JobRequirements.tsx:49-58 | every list reachable from the empty form is well formed |
| `JobForm.AddSameSkillTwice` | src/components/JobRequirements.tsx:50 | adding the same typed skill again changes nothing beyond the retyping: list, input and other fields stay as they were |
| `JobForm.RemoveUndoesAdd` | src/components/JobRequirements.tsx:49-58 | removing a just-added skill restores the previous list |
| `JobForm.RemoveNonMember` | src/components/JobRequirements.tsx:56-58 | removing an unlisted skill changes nothing |
| `JobForm.InsertOf` | src/components/JobRequirements.tsx:75-80 | title and skills as typed, an empty description as null, empty years as null |
| `JobForm.Submit` | src/components/JobRequirements.tsx:60-106 | no insert exactly when the trimmed title or the skill list is empty; the form resets only after a successful insert |
| `JobForm.YearsInsertedAsTyped` | src/components/JobRequirements.tsx:79 | years typed as a whole number are inserted as that number |
| `JobForm.SubmittedSkillsWellFormed` | src/components/JobRequirements.tsx:49-80 | a submitted job has a non-empty, well-formed skill list |
| `RankingsView.ScoreBand` | src/components/RankingsTable.tsx:99-109 | excellent from 80, good from 60, medium from 40, weak below; each band exactly |
| `RankingsView.ScoreBandMonotone` | src/components/RankingsTable.tsx:99-109 | a higher score never falls in a lower band |
| `RankingsView.DisplayedScore` | src/components/RankingsTable.tsx:171 | a missing score shows as 0, a present one as itself |
| `RankingsView.MissingScoreIsWeak` | src/components/RankingsTable.tsx:171 | a missing score lands in the weak band |
| `RankingsView.SkillCellOf` | src/components/RankingsTable.tsx:174-197 | at most the first three skills are shown, and a "+n" badge appears exactly when there are more, so shown + n = total |
| `RankingsView.RankCellOf` | src/components/RankingsTable.tsx:160-166 | the label is "#" then the decimal digits of index + 1, and the trophy is on index 0 only |
| `RankingsView.Rows` | src/components/RankingsTable.tsx:160-171 | one row per ranking, in order, trophy on the first, score as displayed |
| `RankingsView.Insert` | src/components/RankingsTable.tsx:38 | inserting into a score-sorted list keeps it sorted and adds exactly that row |
| `RankingsView.SortByScore` | src/components/RankingsTable.tsx:38 | the result is sorted best score first and is a permutation of the input |
| `RankingsView.Fetch` | src/components/RankingsTable.tsx:26-43 | no query without a job; otherwise exactly that job's rankings, each as often as stored, best first |
| `ResumeUploadFlow.Validate` | src/components/ResumeUpload.tsx:19-35 | accepted exactly when the type mentions "pdf" and the size is at most 10 MiB; a wrong type is reported before a size problem |
| `ResumeUploadFlow.SizeLimitBoundary` | src/components/ResumeUpload.tsx:28 | 10485760 bytes pass and 10485761 do not |
| `ResumeUploadFlow.TypeCheckedFirst` | src/components/ResumeUpload.tsx:19-26 | a non-PDF is reported as such whatever its size |
| `ResumeUploadFlow.StoragePath` | src/components/ResumeUpload.tsx:53 | the path starts with the candidate id and "/" and ends with the file name |
| `ResumeUploadFlow.StorageKeyOfUploadPath` | src/components/ResumeUpload.tsx:53-74 | for a generated id and a file name without "/", the analysis downloads exactly the stored path |
| `ResumeUploadFlow.HandleFileUpload` | src/components/ResumeUpload.tsx:18-79 | validation failures do nothing; otherwise the steps run in order up to and including the first that fails, and each error names exactly the failing step |
| `ResumeUploadFlow.OnePathThroughout` | src/components/ResumeUpload.tsx:53-77 | a completed upload stores, records and sends for analysis the same path under the same candidate id |

## Left out

- HTTP handling is not modelled: CORS headers, `OPTIONS` requests, request-body parsing, and the 500 status. Each error is a datatype value instead.
- The `LOVABLE_API_KEY` check is not modelled, in either function. The key is an environment setting, not data. In the source a missing key fails after the request-id check and before any database access.
- The text-generation calls are not modelled:
  - prompts, model names and temperature;
  - base64 encoding of the PDF;
  - `JSON.parse`.
  Their outcomes are parameters, and `JSON.parse` is a parameter returning a parsed object or nothing.
  - In `rank-candidates` each call returns an ok flag and a content, or throws.
  - In `analyze-resume` the call gives an ok flag and a content. A call that throws is folded into `AiApiError`: the fetch itself (`supabase/functions/analyze-resume/index.ts:52`) or reading its JSON body. Either way the run ends with an error response after the download and before any write; only the error message differs.
- The database and storage are partly modelled:
  - Tables are values.
  - Query errors, upload success and insert success are parameters.
  - The table's native order is the order of the `candidates` sequence.
  - Failed skill or experience inserts in `analyze-resume` are only logged, so they do not appear.
- `Scoring.MatchScore` uses exact rational arithmetic, not IEEE-754 doubles. `(matched / required) * 60` can round differently in floating point by one unit in the last place, and this is not modelled. Years are whole numbers. A fractional `years_of_experience` is not modelled.
- `Text.Lower` only maps ASCII letters. JavaScript's full Unicode case mapping is not modelled, so skill names with non-ASCII letters compare case-sensitively here.
- `RankingsView.SortByScore`: the query fixes no order among rows with equal scores. The model picks one valid order and places a null score first, as PostgreSQL does for a descending sort.
- `RankingsView.Fetch` leaves out query errors, loading state and refetching. The empty-state card is the view of an empty or absent result.
- User-interface effects are left out: toasts, spinners, dialog open/close, `onUploadComplete`, and refetch after ranking or adding a job.
- The candidates list page (`CandidatesTable.tsx`) and the page layout (`Index.tsx`) are not part of this model.
- Concurrency between simultaneous requests is not modelled. Each run is applied to the store as one step.

=== FILE: job_form.dfy ===
/**
 * The job-requirements form: editing the required-skill list, then the
 * validation and field mapping of its submission.
 */
module JobForm {
  import opened Wrappers
  import opened Text
  import Seqs

  /** The form's state: title, description, skill list, skill being typed, required years. */
  datatype Form = Form(
    title: string,
    description: string,
    skills: seq<string>,
    currentSkill: string,
    requiredYears: string)

  const EmptyForm: Form := Form("", "", [], "", "")

  /**
   * `handleAddSkill`: the typed skill, trimmed, is appended and the input
   * cleared, unless it is empty or already listed (compared exactly).
   */
  function AddSkill(f: Form): (g: Form)
    ensures g.title == f.title && g.description == f.description && g.requiredYears == f.requiredYears
    ensures g == f || (Trim(f.currentSkill) != "" && Trim(f.currentSkill) !in f.skills &&
                       g.skills == f.skills + [Trim(f.currentSkill)] && g.currentSkill == "")
    ensures g.skills == f.skills ==> g == f
    ensures Trim(f.currentSkill) != "" && Trim(f.currentSkill) !in f.skills ==>
              g.skills == f.skills + [Trim(f.currentSkill)] && g.currentSkill == ""
  {
    var s := Trim(f.currentSkill);
    if s != "" && s !in f.skills then f.(skills := f.skills + [s], currentSkill := "") else f
  }

  /** `handleRemoveSkill`: every entry equal to `skill` goes; the rest keep their order. */
  function RemoveSkill(f: Form, skill: string): (g: Form)
    ensures g == f.(skills := g.skills)
    ensures Seqs.IsSubseq(g.skills, f.skills)
    ensures forall s :: s in g.skills <==> s in f.skills && s != skill
    ensures forall s :: multiset(g.skills)[s] == if s == skill then 0 else multiset(f.skills)[s]
  {
    f.(skills := Seqs.Filter(Other(skill), f.skills))
  }

  /** Whether an entry differs from `skill`: the entries a removal keeps. */
  function Other(skill: string): string -> bool {
    s => s != skill
  }

  /** Each entry non-empty and trimmed, and no entry listed twice. */
  predicate WellFormedSkills(skills: seq<string>) {
    && (forall i :: 0 <= i < |skills| ==> skills[i] != "" && Trimmed(skills[i]))
    && (forall s :: s in skills ==> multiset(skills)[s] <= 1)
  }

  /** What the user can do to the form. */
  datatype Edit =
    | TypeTitle(title: string)
    | TypeDescription(description: string)
    | TypeYears(years: string)
    | TypeSkill(skill: string)
    | AddClicked
    | RemoveClicked(removed: string)

  function Apply(f: Form, e: Edit): Form {
    match e
    case TypeTitle(t) => f.(title := t)
    case TypeDescription(d) => f.(description := d)
    case TypeYears(y) => f.(requiredYears := y)
    case TypeSkill(s) => f.(currentSkill := s)
    case AddClicked => AddSkill(f)
    case RemoveClicked(s) => RemoveSkill(f, s)
  }

  function ApplyAll(f: Form, edits: seq<Edit>): Form
    decreases |edits|
  {
    if |edits| == 0 then f else ApplyAll(Apply(f, edits[0]), edits[1..])
  }

  /** One edit keeps the skill list well formed. */
  lemma ApplyKeepsSkillsWellFormed(f: Form, e: Edit)
    requires WellFormedSkills(f.skills)
    ensures WellFormedSkills(Apply(f, e).skills)
  {
    match e
    case AddClicked =>
      var g := AddSkill(f);
      if g != f {
        var s := Trim(f.currentSkill);
        forall x ensures multiset(g.skills)[x] <= 1 {
          assert multiset(g.skills)[x] == multiset(f.skills)[x] + multiset([s])[x];
        }
      }
    case RemoveClicked(s) =>
      var g := RemoveSkill(f, s);
      forall i | 0 <= i < |g.skills| ensures g.skills[i] != "" && Trimmed(g.skills[i]) {
        assert g.skills[i] in f.skills;
      }
    case _ =>
  }

  /** Any sequence of edits keeps the skill list free of duplicates, empty entries and untrimmed entries. */
  lemma {:induction false} EditsKeepSkillsWellFormed(f: Form, edits: seq<Edit>)
    requires WellFormedSkills(f.skills)
    ensures WellFormedSkills(ApplyAll(f, edits).skills)
    decreases |edits|
  {
    if |edits| > 0 {
      ApplyKeepsSkillsWellFormed(f, edits[0]);
      EditsKeepSkillsWellFormed(Apply(f, edits[0]), edits[1..]);
    }
  }

  /** Starting from the empty form, every reachable skill list is well formed. */
  lemma ReachableSkillsWellFormed(edits: seq<Edit>)
    ensures WellFormedSkills(ApplyAll(EmptyForm, edits).skills)
  {
    EditsKeepSkillsWellFormed(EmptyForm, edits);
  }

  /** Typing and adding the same skill a second time changes nothing beyond the retyping. */
  lemma AddSameSkillTwice(f: Form, typed: string)
    ensures var once := AddSkill(f.(currentSkill := typed));
            AddSkill(once.(currentSkill := typed)) == once.(currentSkill := typed)
  {
  }

  /** Removing an added skill restores the list it was added to. */
  lemma RemoveUndoesAdd(f: Form, typed: string)
    requires Trim(typed) != "" && Trim(typed) !in f.skills
    ensures RemoveSkill(AddSkill(f.(currentSkill := typed)), Trim(typed)).skills == f.skills
  {
    var s := Trim(typed);
    var added := AddSkill(f.(currentSkill := typed));
    assert added.skills == f.skills + [s];
    Seqs.FilterAppendRejected(Other(s), f.skills, s);
  }

  /** Removing a skill that is not listed changes nothing. */
  lemma RemoveNonMember(f: Form, skill: string)
    requires skill !in f.skills
    ensures RemoveSkill(f, skill) == f
  {
    Seqs.FilterAll(Other(skill), f.skills);
  }

  // ---------------------------------------------------------------------
  // Submission

  /** The row inserted into `job_requirements`. */
  datatype JobInsert = JobInsert(
    jobTitle: string,
    description: Option<string>,
    requiredSkills: seq<string>,
    requiredExperienceYears: Option<int>)

  /**
   * The inserted fields: the title as typed, an empty description as null,
   * and the years through `parseInt` when the field is non-empty (a `NaN`
   * is serialised as null).
   */
  function InsertOf(f: Form): (row: JobInsert)
    ensures row.jobTitle == f.title && row.requiredSkills == f.skills
    ensures row.description.None? <==> f.description == ""
    ensures row.description.Some? ==> row.description.value == f.description
    ensures f.requiredYears == "" ==> row.requiredExperienceYears.None?
  {
    JobInsert(f.title,
              if f.description == "" then None else Some(f.description),
              f.skills,
              if f.requiredYears == "" then None else ParseInt(f.requiredYears))
  }

  /** The insert the submission attempts, if any, and the form afterwards. */
  datatype SubmitRun = SubmitRun(insert: Option<JobInsert>, form: Form)

  /**
   * `handleSubmit`: rejected without an insert when the trimmed title or the
   * skill list is empty; after a successful insert the form is reset, after
   * a failed one it is kept.
   */
  function Submit(f: Form, insertOk: bool): (run: SubmitRun)
    ensures run.insert.None? <==> Trim(f.title) == "" || |f.skills| == 0
    ensures run.insert.Some? ==> run.insert.value == InsertOf(f) && |run.insert.value.requiredSkills| > 0
    ensures run.form == (if run.insert.Some? && insertOk then EmptyForm else f)
  {
    if Trim(f.title) == "" || |f.skills| == 0 then SubmitRun(None, f)
    else SubmitRun(Some(InsertOf(f)), if insertOk then EmptyForm else f)
  }

  /** Years typed as a whole number are inserted as that number. */
  lemma YearsInsertedAsTyped(f: Form, n: nat)
    requires f.requiredYears == NatToString(n)
    ensures InsertOf(f).requiredExperienceYears == Some(n)
  {
    ParseIntDecimal(n);
  }

  /** A job submitted from a form edited from scratch has a non-empty, well-formed skill list. */
  lemma SubmittedSkillsWellFormed(edits: seq<Edit>, insertOk: bool)
    requires Submit(ApplyAll(EmptyForm, edits), insertOk).insert.Some?
    ensures var row := Submit(ApplyAll(EmptyForm, edits), insertOk).insert.value;
            |row.requiredSkills| > 0 && WellFormedSkills(row.requiredSkills)
  {
    ReachableSkillsWellFormed(edits);
  }
}

=== FILE: rank_engine.dfy ===
/**
 * The `rank-candidates` function: checks the request, looks the job up,
 * selects the analyzed candidates, ranks each of them in pool order, then
 * upserts every ranking keyed by (candidate id, job id).
 *
 * The database is an immutable value (`Db`); the text-generation call is the
 * parameter `advisor`, and whether each upsert succeeds is the parameter
 * `succeeds`.
 */
module RankEngine {
  import opened Wrappers
  import Seqs
  import SkillMatch
  import Scoring
  import ResumeAnalysis

  /** A `candidates` row with its `candidate_skills` names, in the order the query returns them. */
  datatype Candidate = Candidate(
    id: string,
    fullName: string,
    yearsOfExperience: Option<int>,
    status: Option<string>,
    skills: seq<string>)

  /** A `job_requirements` row. */
  datatype Job = Job(
    id: string,
    title: string,
    requiredSkills: seq<string>,
    requiredExperienceYears: Option<int>)

  /** A `candidate_rankings` record as the function builds it. */
  datatype Ranking = Ranking(
    candidateId: string,
    jobRequirementId: string,
    matchScore: int,
    matchedSkills: seq<string>,
    missingSkills: seq<string>,
    recommendation: string)

  /** What the recommendation call gave back for one candidate. */
  datatype AdvisorReply =
    | Threw                                       // the fetch, or reading its JSON body, threw
    | Replied(ok: bool, content: Option<string>)  // HTTP status ok?, `choices[0].message.content`

  /** The request body: `{ jobRequirementId, candidateIds }`. */
  datatype RankRequest = RankRequest(jobRequirementId: Option<string>, candidateIds: Option<seq<string>>)

  /** Why a run ends with an error response (HTTP 500). */
  datatype RankError =
    | MissingJobRequirementId   // 'Job requirement ID is required'
    | JobNotFound               // 'Job requirement not found'
    | CandidateQueryFailed      // the candidates query reported an error
    | AdvisorFailed             // a recommendation call threw

  datatype RankResponse =
    | Failed(error: RankError)
    | NoCandidates              // 'No analyzed candidates found', not an error
    | Ranked(rankings: seq<Ranking>)

  /** The `onConflict` key of `candidate_rankings`. */
  type Key = (string, string)

  /** The `candidate_rankings` table: one record per key. */
  type Store = map<Key, Ranking>

  /** The tables the function reads, the outcome of the candidates query, and the rankings table. */
  datatype Db = Db(jobs: map<string, Job>, candidates: seq<Candidate>, candidateQueryOk: bool, rankings: Store)

  datatype RankRun = RankRun(response: RankResponse, store: Store)

  /** The recommendation used when the call does not produce one. */
  const Fallback: string := "يرجى مراجعة الملف الشخصي بعناية"

  // ---------------------------------------------------------------------
  // Candidate pool

  /** Analyzed, and listed in `candidateIds` when that list is present and non-empty. */
  predicate Eligible(c: Candidate, ids: Option<seq<string>>) {
    c.status == Some(ResumeAnalysis.AnalyzedStatus) && (ids.None? || |ids.value| == 0 || c.id in ids.value)
  }

  /** The candidates query: eligible candidates in the order the table returns them. */
  function Pool(candidates: seq<Candidate>, ids: Option<seq<string>>): (pool: seq<Candidate>)
    ensures Seqs.IsSubseq(pool, candidates)
    ensures forall c :: c in pool <==> c in candidates && Eligible(c, ids)
    ensures forall c :: multiset(pool)[c] == if Eligible(c, ids) then multiset(candidates)[c] else 0
  {
    Seqs.Filter(EligibleFor(ids), candidates)
  }

  /** Whether a candidate belongs to the pool of a request naming `ids`. */
  function EligibleFor(ids: Option<seq<string>>): Candidate -> bool {
    c => Eligible(c, ids)
  }

  function IdOf(c: Candidate): string {
    c.id
  }

  // ---------------------------------------------------------------------
  // One candidate

  /** The reply's content when the call succeeded with a non-empty content, the fallback otherwise. */
  function Recommendation(ok: bool, content: Option<string>): (text: string)
    ensures ok && Truthy(content) ==> text == content.value
    ensures !(ok && Truthy(content)) ==> text == Fallback
  {
    if ok && Truthy(content) then content.value else Fallback
  }

  /** The ranking record of one candidate against the job. */
  function RankOne(job: Job, jobId: string, c: Candidate, recommendation: string): (r: Ranking)
    ensures r.candidateId == c.id && r.jobRequirementId == jobId && r.recommendation == recommendation
    ensures forall s :: s in r.matchedSkills <==> s in c.skills && SkillMatch.RelatesToRequired(s, job.requiredSkills)
    ensures forall s :: s in r.missingSkills <==> s in job.requiredSkills && !SkillMatch.Covered(s, c.skills)
    ensures r.matchScore >= 0
    ensures |r.matchedSkills| <= |job.requiredSkills| ==> r.matchScore <= 100
  {
    Ranking(
      c.id,
      jobId,
      Scoring.MatchScore(c.skills, job.requiredSkills, job.requiredExperienceYears, c.yearsOfExperience),
      SkillMatch.MatchedSkills(c.skills, job.requiredSkills),
      SkillMatch.MissingSkills(c.skills, job.requiredSkills),
      recommendation)
  }

  /** The same score and skill lists; the recommendation may differ. */
  predicate SameAssessment(a: Ranking, b: Ranking) {
    a.candidateId == b.candidateId && a.jobRequirementId == b.jobRequirementId &&
    a.matchScore == b.matchScore && a.matchedSkills == b.matchedSkills && a.missingSkills == b.missingSkills
  }

  /** Whether the recommendation call for some pool candidate throws. */
  predicate SomeCallThrows(pool: seq<Candidate>, advisor: Candidate -> AdvisorReply) {
    exists i :: 0 <= i < |pool| && advisor(pool[i]).Threw?
  }

  /**
   * The loop over the pool: one ranking per candidate, in pool order; a call
   * that throws aborts the whole loop.
   */
  function RankPool(job: Job, jobId: string, pool: seq<Candidate>, advisor: Candidate -> AdvisorReply)
    : (r: Result<seq<Ranking>, RankError>)
    ensures r.Failure? <==> SomeCallThrows(pool, advisor)
    ensures r.Failure? ==> r.error == AdvisorFailed
    ensures r.Success? ==> r.value == Seqs.Map(RankingOf(job, jobId, advisor), pool)
  {
    if |pool| == 0 then Success([])
    else
      SomeCallThrowsFront(pool, advisor);
      match advisor(pool[0])
      case Threw => Failure(AdvisorFailed)
      case Replied(ok, content) =>
        match RankPool(job, jobId, pool[1..], advisor)
        case Failure(e) => Failure(e)
        case Success(rest) =>
          Success([RankingOf(job, jobId, advisor)(pool[0])] + rest)
  }

  /** Some call throws exactly when the first one does or one of the rest does. */
  lemma SomeCallThrowsFront(pool: seq<Candidate>, advisor: Candidate -> AdvisorReply)
    requires |pool| > 0
    ensures SomeCallThrows(pool, advisor) <==> advisor(pool[0]).Threw? || SomeCallThrows(pool[1..], advisor)
  {
    if SomeCallThrows(pool, advisor) {
      var i :| 0 <= i < |pool| && advisor(pool[i]).Threw?;
      if i > 0 {
        assert pool[1..][i - 1] == pool[i];
      }
    }
    if SomeCallThrows(pool[1..], advisor) {
      var i :| 0 <= i < |pool[1..]| && advisor(pool[1..][i]).Threw?;
      assert pool[i + 1] == pool[1..][i];
    }
  }

  /** The recommendation text a reply that did not throw leaves in the ranking. */
  function ReplyText(reply: AdvisorReply): string {
    match reply
    case Threw => Fallback
    case Replied(ok, content) => Recommendation(ok, content)
  }

  /** The ranking each candidate gets from a run with these recommendation replies. */
  function RankingOf(job: Job, jobId: string, advisor: Candidate -> AdvisorReply): Candidate -> Ranking {
    c => RankOne(job, jobId, c, ReplyText(advisor(c)))
  }

  /** Every record of a ranked pool carries its candidate's id and the job's id. */
  lemma RankedKeys(job: Job, jobId: string, pool: seq<Candidate>, advisor: Candidate -> AdvisorReply)
    ensures var ranks := Seqs.Map(RankingOf(job, jobId, advisor), pool);
            forall i :: 0 <= i < |pool| ==> ranks[i].candidateId == pool[i].id && ranks[i].jobRequirementId == jobId
  {
    var ranks := Seqs.Map(RankingOf(job, jobId, advisor), pool);
    forall i | 0 <= i < |pool|
      ensures ranks[i].candidateId == pool[i].id && ranks[i].jobRequirementId == jobId
    {
      assert ranks[i] == RankOne(job, jobId, pool[i], ReplyText(advisor(pool[i])));
    }
  }

  // ---------------------------------------------------------------------
  // Upserts

  function KeyOf(r: Ranking): Key {
    (r.candidateId, r.jobRequirementId)
  }

  function Lookup(store: Store, k: Key): Option<Ranking> {
    if k in store then Some(store[k]) else None
  }

  /**
   * The record a batch leaves under key `k`, read from the end of the batch:
   * the last successfully upserted ranking with that key, if any.
   */
  function LatestWrite(batch: seq<Ranking>, succeeds: Ranking -> bool, k: Key): (w: Option<Ranking>)
    ensures w.Some? ==> w.value in batch && succeeds(w.value) && KeyOf(w.value) == k
  {
    if |batch| == 0 then None
    else
      var last := batch[|batch| - 1];
      if succeeds(last) && KeyOf(last) == k then Some(last)
      else LatestWrite(batch[..|batch| - 1], succeeds, k)
  }

  /** Reading the batch from its front: the first element's write is overridden by any later one. */
  lemma {:induction false} LatestWriteFront(batch: seq<Ranking>, succeeds: Ranking -> bool, k: Key)
    requires |batch| > 0
    ensures LatestWrite(batch, succeeds, k) ==
              match LatestWrite(batch[1..], succeeds, k)
              case Some(r) => Some(r)
              case None => if succeeds(batch[0]) && KeyOf(batch[0]) == k then Some(batch[0]) else None
    decreases |batch|
  {
    if |batch| > 1 {
      var init := batch[..|batch| - 1];
      assert init[1..] == batch[1..][..|batch[1..]| - 1];
      assert batch[1..][|batch[1..]| - 1] == batch[|batch| - 1];
      LatestWriteFront(init, succeeds, k);
    } else {
      assert batch[..0] == [];
    }
  }

  /**
   * The upsert loop, front to back. A failed upsert is only logged, so it
   * leaves the store as it was. Afterwards each key holds the last
   * successful write of the batch to it, or what it held before.
   */
  function UpsertAll(store: Store, batch: seq<Ranking>, succeeds: Ranking -> bool): (s: Store)
    ensures forall k :: Lookup(s, k) == match LatestWrite(batch, succeeds, k)
                                        case Some(r) => Some(r)
                                        case None => Lookup(store, k)
    decreases |batch|
  {
    if |batch| == 0 then store
    else
      var next := if succeeds(batch[0]) then store[KeyOf(batch[0]) := batch[0]] else store;
      var s := UpsertAll(next, batch[1..], succeeds);
      forall k ensures Lookup(s, k) == match LatestWrite(batch, succeeds, k)
                                        case Some(r) => Some(r)
                                        case None => Lookup(store, k) {
        LatestWriteFront(batch, succeeds, k);
      }
      s
  }

  /** Stores that agree on every key are equal. */
  lemma StoreExtensional(a: Store, b: Store)
    requires forall k :: Lookup(a, k) == Lookup(b, k)
    ensures a == b
  {
    assert a.Keys == b.Keys by {
      forall k ensures k in a <==> k in b {
        assert Lookup(a, k) == Lookup(b, k);
      }
    }
    forall k | k in a ensures a[k] == b[k] {
      assert Lookup(a, k) == Lookup(b, k);
    }
  }

  /** Upserting the same batch a second time changes nothing. */
  lemma UpsertAllIdempotent(store: Store, batch: seq<Ranking>, succeeds: Ranking -> bool)
    ensures UpsertAll(UpsertAll(store, batch, succeeds), batch, succeeds) == UpsertAll(store, batch, succeeds)
  {
    var once := UpsertAll(store, batch, succeeds);
    var twice := UpsertAll(once, batch, succeeds);
    forall k ensures Lookup(twice, k) == Lookup(once, k) {
    }
    StoreExtensional(twice, once);
  }

  /** Keys no ranking of the batch carries keep their record, or their absence. */
  lemma UpsertAllOtherKeys(store: Store, batch: seq<Ranking>, succeeds: Ranking -> bool, k: Key)
    requires forall i :: 0 <= i < |batch| ==> KeyOf(batch[i]) != k
    ensures Lookup(UpsertAll(store, batch, succeeds), k) == Lookup(store, k)
  {
  }

  /** In a batch whose keys are distinct, every successful upsert leaves its own record under its key. */
  lemma {:induction false} LatestWriteDistinct(batch: seq<Ranking>, succeeds: Ranking -> bool, i: nat)
    requires i < |batch| && succeeds(batch[i])
    requires forall a, b :: 0 <= a < b < |batch| ==> KeyOf(batch[a]) != KeyOf(batch[b])
    ensures LatestWrite(batch, succeeds, KeyOf(batch[i])) == Some(batch[i])
    decreases |batch|
  {
    if i < |batch| - 1 {
      var init := batch[..|batch| - 1];
      assert init[i] == batch[i];
      LatestWriteDistinct(init, succeeds, i);
    }
  }

  // ---------------------------------------------------------------------
  // The request handler

  /** One run of the function against the database. */
  function Rank(req: RankRequest, db: Db, advisor: Candidate -> AdvisorReply, succeeds: Ranking -> bool)
    : (run: RankRun)
    ensures !Truthy(req.jobRequirementId) ==> run == RankRun(Failed(MissingJobRequirementId), db.rankings)
    ensures Truthy(req.jobRequirementId) && req.jobRequirementId.value !in db.jobs ==>
              run == RankRun(Failed(JobNotFound), db.rankings)
    ensures run.response.NoCandidates? <==>
              Truthy(req.jobRequirementId) && req.jobRequirementId.value in db.jobs &&
              db.candidateQueryOk && Pool(db.candidates, req.candidateIds) == []
    ensures Truthy(req.jobRequirementId) && req.jobRequirementId.value in db.jobs && !db.candidateQueryOk ==>
              run == RankRun(Failed(CandidateQueryFailed), db.rankings)
    ensures run.response.Failed? ==> run.store == db.rankings
    ensures !run.response.Ranked? ==> run.store == db.rankings
    ensures Truthy(req.jobRequirementId) && req.jobRequirementId.value in db.jobs && db.candidateQueryOk &&
            SomeCallThrows(Pool(db.candidates, req.candidateIds), advisor) ==>
              run == RankRun(Failed(AdvisorFailed), db.rankings)
    ensures run.response.Failed? && run.response.error == AdvisorFailed ==>
              SomeCallThrows(Pool(db.candidates, req.candidateIds), advisor)
    ensures Truthy(req.jobRequirementId) && req.jobRequirementId.value in db.jobs && db.candidateQueryOk &&
            |Pool(db.candidates, req.candidateIds)| > 0 &&
            !SomeCallThrows(Pool(db.candidates, req.candidateIds), advisor) ==>
              run.response.Ranked?
    ensures run.response.Ranked? ==>
              var pool := Pool(db.candidates, req.candidateIds);
              && Truthy(req.jobRequirementId) && req.jobRequirementId.value in db.jobs
              && |run.response.rankings| == |pool| > 0
              && (forall i :: 0 <= i < |pool| ==>
                    run.response.rankings[i].candidateId == pool[i].id &&
                    run.response.rankings[i].jobRequirementId == req.jobRequirementId.value)
              && run.response.rankings ==
                 Seqs.Map(RankingOf(db.jobs[req.jobRequirementId.value], req.jobRequirementId.value, advisor), pool)
              && run.store == UpsertAll(db.rankings, run.response.rankings, succeeds)
  {
    if !Truthy(req.jobRequirementId) then RankRun(Failed(MissingJobRequirementId), db.rankings)
    else
      var jobId := req.jobRequirementId.value;
      if jobId !in db.jobs then RankRun(Failed(JobNotFound), db.rankings)
      else if !db.candidateQueryOk then RankRun(Failed(CandidateQueryFailed), db.rankings)
      else
        var pool := Pool(db.candidates, req.candidateIds);
        if |pool| == 0 then RankRun(NoCandidates, db.rankings)
        else
          match RankPool(db.jobs[jobId], jobId, pool, advisor)
          case Failure(e) => RankRun(Failed(e), db.rankings)
          case Success(rankings) =>
            RankedKeys(db.jobs[jobId], jobId, pool, advisor);
            RankRun(Ranked(rankings), UpsertAll(db.rankings, rankings, succeeds))
  }

  /** Failed upserts are only logged: the response is the same whichever upserts fail. */
  lemma ResponseIgnoresUpsertFailures(req: RankRequest, db: Db, advisor: Candidate -> AdvisorReply,
                                      s1: Ranking -> bool, s2: Ranking -> bool)
    ensures Rank(req, db, advisor, s1).response == Rank(req, db, advisor, s2).response
  {
  }

  /**
   * Scores and skill lists depend only on the job and the candidates: two
   * runs over the same tables, with any recommendation replies and any
   * earlier rankings (such as those of a previous run), agree on them.
   */
  lemma RerunGivesSameAssessment(req: RankRequest, db1: Db, db2: Db,
                                 a1: Candidate -> AdvisorReply, a2: Candidate -> AdvisorReply,
                                 s1: Ranking -> bool, s2: Ranking -> bool)
    requires db1.jobs == db2.jobs && db1.candidates == db2.candidates
    requires Rank(req, db1, a1, s1).response.Ranked? && Rank(req, db2, a2, s2).response.Ranked?
    ensures var r1 := Rank(req, db1, a1, s1).response.rankings;
            var r2 := Rank(req, db2, a2, s2).response.rankings;
            |r1| == |r2| && forall i :: 0 <= i < |r1| ==> SameAssessment(r1[i], r2[i])
  {
  }

  /** A run whose recommendation calls never throw ranks every pool candidate; failed replies get the fallback. */
  lemma FailedRepliesStillRanked(req: RankRequest, db: Db, advisor: Candidate -> AdvisorReply,
                                 succeeds: Ranking -> bool)
    requires Truthy(req.jobRequirementId) && req.jobRequirementId.value in db.jobs && db.candidateQueryOk
    requires |Pool(db.candidates, req.candidateIds)| > 0
    requires !SomeCallThrows(Pool(db.candidates, req.candidateIds), advisor)
    ensures var run := Rank(req, db, advisor, succeeds);
            var pool := Pool(db.candidates, req.candidateIds);
            && run.response.Ranked?
            && forall i :: 0 <= i < |pool| ==>
                 (run.response.rankings[i].recommendation == Fallback <==>
                    !(advisor(pool[i]).ok && Truthy(advisor(pool[i]).content)) ||
                    advisor(pool[i]).content.value == Fallback)
  {
  }

  /** Every ranked candidate is analyzed and, when the request names candidates, one of them. */
  lemma RankedCandidatesEligible(req: RankRequest, db: Db, advisor: Candidate -> AdvisorReply,
                                 succeeds: Ranking -> bool, i: nat)
    requires Rank(req, db, advisor, succeeds).response.Ranked?
    requires i < |Rank(req, db, advisor, succeeds).response.rankings|
    ensures var id := Rank(req, db, advisor, succeeds).response.rankings[i].candidateId;
            exists c :: c in db.candidates && c.id == id && c.status == Some(ResumeAnalysis.AnalyzedStatus) &&
                        (req.candidateIds.Some? && |req.candidateIds.value| > 0 ==> id in req.candidateIds.value)
  {
    var pool := Pool(db.candidates, req.candidateIds);
    assert pool[i] in pool;
  }

  /**
   * With distinct candidate ids, after a successful run the store holds, for
   * every ranked candidate whose upsert succeeded, exactly that ranking under
   * (candidate id, job id); other keys are untouched.
   */
  lemma StoreAfterRank(req: RankRequest, db: Db, advisor: Candidate -> AdvisorReply,
                       succeeds: Ranking -> bool)
    requires forall a, b :: 0 <= a < b < |db.candidates| ==> db.candidates[a].id != db.candidates[b].id
    requires Rank(req, db, advisor, succeeds).response.Ranked?
    ensures var run := Rank(req, db, advisor, succeeds);
            var rs := run.response.rankings;
            && (forall i :: 0 <= i < |rs| && succeeds(rs[i]) ==>
                  Lookup(run.store, (rs[i].candidateId, req.jobRequirementId.value)) == Some(rs[i]))
            && (forall k :: (forall i :: 0 <= i < |rs| ==> KeyOf(rs[i]) != k) ==>
                  Lookup(run.store, k) == Lookup(db.rankings, k))
  {
    var run := Rank(req, db, advisor, succeeds);
    var rs := run.response.rankings;
    var pool := Pool(db.candidates, req.candidateIds);
    PoolIdsDistinct(db.candidates, req.candidateIds);
    forall i | 0 <= i < |rs| && succeeds(rs[i])
      ensures Lookup(run.store, (rs[i].candidateId, req.jobRequirementId.value)) == Some(rs[i])
    {
      LatestWriteDistinct(rs, succeeds, i);
    }
    forall k | forall i :: 0 <= i < |rs| ==> KeyOf(rs[i]) != k
      ensures Lookup(run.store, k) == Lookup(db.rankings, k)
    {
      UpsertAllOtherKeys(db.rankings, rs, succeeds, k);
    }
  }

  /** Selecting from candidates with distinct ids gives a pool with distinct ids. */
  lemma {:induction false} PoolIdsDistinct(candidates: seq<Candidate>, ids: Option<seq<string>>)
    requires forall a, b :: 0 <= a < b < |candidates| ==> candidates[a].id != candidates[b].id
    ensures var pool := Pool(candidates, ids);
            forall a, b :: 0 <= a < b < |pool| ==> pool[a].id != pool[b].id
  {
    Seqs.FilterKeysDistinct(EligibleFor(ids), IdOf, candidates);
  }
}

=== FILE: rankings_view.dfy ===
/**
 * The rankings table: which stored rankings it fetches and in what order,
 * the score band of each row, its "#n" label and trophy, and the
 * truncation of long skill lists to three badges plus a "+n" badge.
 */
module RankingsView {
  import opened Wrappers
  import opened Text
  import Seqs

  /** A `candidate_rankings` row as read back (every column may be null). */
  datatype StoredRanking = StoredRanking(
    candidateId: Option<string>,
    jobRequirementId: Option<string>,
    matchScore: Option<int>,
    matchedSkills: Option<seq<string>>,
    missingSkills: Option<seq<string>>,
    recommendation: Option<string>)

  datatype Band = Excellent | Good | Medium | Weak

  /** Bands from worst to best. */
  function Level(b: Band): nat {
    match b
    case Weak => 0
    case Medium => 1
    case Good => 2
    case Excellent => 3
  }

  /** `getScoreBadge`: 80 and up excellent, 60 good, 40 medium, weak below. */
  function ScoreBand(score: int): (b: Band)
    ensures b == Excellent <==> 80 <= score
    ensures b == Good <==> 60 <= score < 80
    ensures b == Medium <==> 40 <= score < 60
    ensures b == Weak <==> score < 40
  {
    if score >= 80 then Excellent
    else if score >= 60 then Good
    else if score >= 40 then Medium
    else Weak
  }

  /** A higher score never falls in a lower band. */
  lemma ScoreBandMonotone(s1: int, s2: int)
    requires s1 <= s2
    ensures Level(ScoreBand(s1)) <= Level(ScoreBand(s2))
  {
  }

  /** `match_score || 0`: a missing score shows as 0. */
  function DisplayedScore(score: Option<int>): (s: int)
    ensures score.None? ==> s == 0
    ensures score.Some? ==> s == score.value
  {
    if score.Some? && score.value != 0 then score.value else 0
  }

  /** A missing score is shown in the weak band. */
  lemma MissingScoreIsWeak()
    ensures ScoreBand(DisplayedScore(None)) == Weak
  {
  }

  /** The badges of a skill cell: the skills shown, and the "+n" overflow badge if any. */
  datatype SkillCell = SkillCell(shown: seq<string>, overflow: Option<nat>)

  const ShownSkills: nat := 3

  /** `skills?.slice(0, 3)` and, when more than three, a `+(n - 3)` badge. */
  function SkillCellOf(skills: Option<seq<string>>): (cell: SkillCell)
    ensures skills.None? ==> cell == SkillCell([], None)
    ensures skills.Some? ==>
              var n := |skills.value|;
              && |cell.shown| == (if n < ShownSkills then n else ShownSkills)
              && cell.shown == skills.value[..|cell.shown|]
              && (cell.overflow.Some? <==> n > ShownSkills)
              && |cell.shown| + cell.overflow.GetOr(0) == n
  {
    match skills
    case None => SkillCell([], None)
    case Some(s) =>
      if |s| > ShownSkills then SkillCell(s[..ShownSkills], Some(|s| - ShownSkills))
      else SkillCell(s, None)
  }

  /** The rank cell of row `index`: "#(index + 1)", with the trophy on the first row only. */
  datatype RankCell = RankCell(text: string, trophy: bool)

  function RankCellOf(index: nat): (cell: RankCell)
    ensures cell.trophy <==> index == 0
    ensures |cell.text| >= 2 && cell.text[0] == '#'
    ensures AllDigits(cell.text[1..], 10) && DigitsValue(cell.text[1..], 10) == index + 1
  {
    NatToStringRoundTrip(index + 1);
    var text := "#" + NatToString(index + 1);
    assert text[1..] == NatToString(index + 1);
    RankCell(text, index == 0)
  }

  /** One rendered row. */
  datatype RowView = RowView(
    rank: RankCell,
    score: int,
    band: Band,
    matched: SkillCell,
    missing: SkillCell,
    recommendation: Option<string>)

  function RowOf(index: nat, r: StoredRanking): RowView {
    var score := DisplayedScore(r.matchScore);
    RowView(RankCellOf(index), score, ScoreBand(score),
            SkillCellOf(r.matchedSkills), SkillCellOf(r.missingSkills), r.recommendation)
  }

  /** The table body: one row per fetched ranking, in fetch order. */
  function Rows(rankings: seq<StoredRanking>): (rows: seq<RowView>)
    ensures |rows| == |rankings|
    ensures forall i :: 0 <= i < |rows| ==> (rows[i].rank.trophy <==> i == 0)
    ensures forall i :: 0 <= i < |rows| ==> rows[i].score == DisplayedScore(rankings[i].matchScore)
  {
    seq(|rankings|, i requires 0 <= i < |rankings| => RowOf(i, rankings[i]))
  }

  // ---------------------------------------------------------------------
  // Fetching

  /**
   * `order('match_score', { ascending: false })`: descending, with a null
   * score first, as PostgreSQL places nulls for a descending order.
   */
  predicate ScoreBefore(a: Option<int>, b: Option<int>) {
    a.None? || (b.Some? && a.value >= b.value)
  }

  predicate SortedByScore(s: seq<StoredRanking>) {
    forall i, j :: 0 <= i < j < |s| ==> ScoreBefore(s[i].matchScore, s[j].matchScore)
  }

  /** Inserts `x` into a sorted list, after the rows it does not beat. */
  function Insert(x: StoredRanking, s: seq<StoredRanking>): (r: seq<StoredRanking>)
    requires SortedByScore(s)
    ensures SortedByScore(r)
    ensures multiset(r) == multiset(s) + multiset{x}
  {
    if |s| == 0 then [x]
    else if ScoreBefore(x.matchScore, s[0].matchScore) && !ScoreBefore(s[0].matchScore, x.matchScore) then [x] + s
    else
      var rest := Insert(x, s[1..]);
      InsertBehindHead(x, s, rest);
      [s[0]] + rest
  }

  /** The head of a sorted list stays in front of what inserting `x` into its tail gives. */
  lemma InsertBehindHead(x: StoredRanking, s: seq<StoredRanking>, rest: seq<StoredRanking>)
    requires |s| > 0 && SortedByScore(s) && SortedByScore(rest)
    requires ScoreBefore(s[0].matchScore, x.matchScore)
    requires multiset(rest) == multiset(s[1..]) + multiset{x}
    ensures SortedByScore([s[0]] + rest)
    ensures multiset([s[0]] + rest) == multiset(s) + multiset{x}
  {
    assert s == [s[0]] + s[1..];
    forall y | y in rest ensures ScoreBefore(s[0].matchScore, y.matchScore) {
      assert y in multiset(rest);
      if y != x {
        assert y in s[1..];
      }
    }
    var r := [s[0]] + rest;
    forall i, j | 0 <= i < j < |r| ensures ScoreBefore(r[i].matchScore, r[j].matchScore) {
      if i == 0 {
        assert r[j] == rest[j - 1] && r[j] in rest;
      } else {
        assert r[i] == rest[i - 1] && r[j] == rest[j - 1];
      }
    }
  }

  /**
   * One of the orders the database may return: sorted on the score key. The
   * query fixes no order among rows with equal scores, and neither does this.
   */
  function SortByScore(s: seq<StoredRanking>): (r: seq<StoredRanking>)
    ensures SortedByScore(r)
    ensures multiset(r) == multiset(s)
  {
    if |s| == 0 then []
    else
      assert s == [s[0]] + s[1..];
      Insert(s[0], SortByScore(s[1..]))
  }

  /**
   * The query the table runs: none at all when no job is selected; otherwise
   * the rankings of the selected job, best score first.
   */
  function Fetch(jobId: Option<string>, table: seq<StoredRanking>): (rows: Option<seq<StoredRanking>>)
    ensures (jobId.None? || jobId.value == "") <==> rows.None?
    ensures rows.Some? ==> SortedByScore(rows.value)
    ensures rows.Some? ==> forall r :: r in rows.value <==> r in table && r.jobRequirementId == jobId
    ensures rows.Some? ==>
              forall r :: multiset(rows.value)[r] == if r.jobRequirementId == jobId then multiset(table)[r] else 0
  {
    if jobId.None? || jobId.value == "" then None
    else
      var selected := Seqs.Filter((r: StoredRanking) => r.jobRequirementId == jobId, table);
      var sorted := SortByScore(selected);
      assert forall r :: r in sorted <==> r in multiset(selected);
      Some(sorted)
  }
}

=== FILE: resume_analysis.dfy ===
/**
 * The `analyze-resume` function: derive the storage key, download the file,
 * send it to the parsing model, strip a Markdown code fence from the reply,
 * parse it, then update the candidate and insert its skills and work
 * experiences.
 *
 * Storage, the model call and `JSON.parse` are parameters (`AnalyzeEnv`);
 * every store operation the function performs is recorded as an `Effect`.
 */
module ResumeAnalysis {
  import opened Wrappers
  import opened Text

  datatype ParsedSkill = ParsedSkill(name: string, category: Option<string>, proficiency: Option<string>)

  datatype ParsedExperience = ParsedExperience(
    companyName: string, position: string,
    startDate: Option<string>, endDate: Option<string>, description: Option<string>)

  /** The object `JSON.parse` yields from the model's reply. */
  datatype ParsedResume = ParsedResume(
    fullName: Option<string>,
    email: Option<string>,
    phone: Option<string>,
    location: Option<string>,
    yearsOfExperience: Option<int>,
    education: Option<string>,
    summary: Option<string>,
    skills: Option<seq<ParsedSkill>>,
    workExperiences: Option<seq<ParsedExperience>>)

  /** The update applied to the `candidates` row. */
  datatype CandidateUpdate = CandidateUpdate(
    fullName: string,
    email: Option<string>,
    phone: Option<string>,
    location: Option<string>,
    yearsOfExperience: Option<int>,
    education: Option<string>,
    summary: Option<string>,
    status: string)

  datatype SkillRow = SkillRow(candidateId: string, skillName: string, category: string, proficiency: string)

  datatype ExperienceRow = ExperienceRow(
    candidateId: string, companyName: string, position: string,
    startDate: Option<string>, endDate: Option<string>, description: Option<string>)

  /** A store operation, in the order the function issues them. */
  datatype Effect =
    | Download(key: string)
    | UpdateCandidate(candidateId: string, update: CandidateUpdate)
    | InsertSkills(skillRows: seq<SkillRow>)
    | InsertExperiences(experienceRows: seq<ExperienceRow>)

  datatype AnalyzeError =
    | MissingResumeUrl   // 'Resume URL is required'
    | DownloadFailed     // 'Failed to download resume: ...'
    | AiApiError         // 'AI API error: ...'
    | NoContent          // 'No content in AI response'
    | ParseFailed        // 'Failed to parse AI response: ...'
    | UpdateFailed       // the candidate update reported an error

  /**
   * The outside world of one run: which storage keys download, whether the
   * model call returns an ok status, the reply's content, and `JSON.parse`
   * (`None` when it throws). The candidate update's success is `updateOk`;
   * the two inserts' failures are only logged, so they are not modelled.
   */
  datatype AnalyzeEnv = AnalyzeEnv(
    downloads: string -> bool,
    aiOk: bool,
    content: Option<string>,
    parse: string -> Option<ParsedResume>,
    updateOk: bool)

  datatype AnalyzeRun = AnalyzeRun(effects: seq<Effect>, outcome: Result<ParsedResume, AnalyzeError>)

  const JsonFence: string := "```json"
  const Fence: string := "```"
  const BucketPrefix: string := "resumes/"
  const UnknownName: string := "Unknown"
  const DefaultCategory: string := "Other"
  const DefaultProficiency: string := "Intermediate"
  /** The status of a candidate whose résumé has been analysed; the ranking function selects on it. */
  const AnalyzedStatus: string := "analyzed"

  /** `s || d` for an optional string. */
  function OrDefault(s: Option<string>, d: string): string {
    if Truthy(s) then s.value else d
  }

  // ---------------------------------------------------------------------
  // Cleaning the reply

  /** `s.replace(/\s*```$/, '')`: a closing fence at the very end goes, with the white space before it. */
  function StripClosingFence(s: string): (r: string)
    ensures !EndsWith(s, Fence) ==> r == s
    ensures EndsWith(s, Fence) ==>
              |r| <= |s| - 3 && r == s[..|r|] && AllWhitespace(s[|r|..|s| - 3]) && (r == [] || !IsWhitespace(r[|r| - 1]))
  {
    if EndsWith(s, Fence) then TrimEnd(s[..|s| - 3]) else s
  }

  /**
   * A trimmed reply without, when it opens with "```json" (checked first) or
   * "```", that opening fence and the white space after it, and without a
   * closing fence at its end. What is left is a piece of the reply, and a
   * trimmed reply leaves a trimmed piece.
   */
  function Unfence(t: string): (r: string)
    ensures !StartsWith(t, Fence) ==> r == t
    ensures exists i, j :: 0 <= i <= j <= |t| && r == t[i..j]
    ensures Trimmed(t) ==> Trimmed(r)
  {
    if StartsWith(t, JsonFence) then StripOpening(t, |JsonFence|)
    else if StartsWith(t, Fence) then StripOpening(t, |Fence|)
    else assert t == t[0..|t|]; t
  }

  /** The reply after an opening fence of `k` characters, without the white space that follows it and a closing fence. */
  function StripOpening(t: string, k: nat): (r: string)
    requires 0 < k <= |t|
    ensures exists i, j :: k <= i <= j <= |t| && r == t[i..j]
    ensures Trimmed(t) ==> Trimmed(r)
  {
    var v := TrimStart(t[k..]);
    var r := StripClosingFence(v);
    OpeningPieces(t, k, v, r);
    r
  }

  /** What is left after the opening fence is a piece of the reply, trimmed when the reply is. */
  lemma OpeningPieces(t: string, k: nat, v: string, r: string)
    requires 0 < k <= |t| && v == TrimStart(t[k..]) && r == StripClosingFence(v)
    ensures exists i, j :: k <= i <= j <= |t| && r == t[i..j]
    ensures Trimmed(t) ==> Trimmed(r)
  {
    var i := |t| - |v|;
    var u := t[k..];
    assert v == u[|u| - |v|..];
    assert v == t[i..];
    assert r == v[..|r|];
    SliceOfSuffix(t, i, |r|);
    if r != [] {
      assert r[0] == v[0];
      if r == v {
        assert v[|v| - 1] == t[|t| - 1];
      }
    }
  }

  /**
   * The cleaning applied to the reply's content before `JSON.parse`: the
   * result is a piece of the content with no white space at either end.
   */
  function CleanContent(content: string): (r: string)
    ensures Trimmed(r)
    ensures exists i, j :: 0 <= i <= j <= |content| && r == content[i..j]
  {
    var t := Trim(content);
    var r := Unfence(t);
    SliceOfSlice(content, t, r);
    r
  }

  /**
   * After "```json" and any white space, the rest is kept up to a closing
   * fence at its very end, whether or not that fence is there.
   */
  lemma UnfenceJsonOpening(w: string, rest: string)
    requires AllWhitespace(w)
    requires rest == [] || !IsWhitespace(rest[0])
    ensures Unfence(JsonFence + w + rest) == StripClosingFence(rest)
  {
    var t := JsonFence + w + rest;
    assert t[..|JsonFence|] == JsonFence;
    assert t[|JsonFence|..] == w + rest;
    TrimStartPrefix(w, rest);
  }

  /** Likewise after a bare "```" that does not begin "```json". */
  lemma UnfenceBareOpening(w: string, rest: string)
    requires AllWhitespace(w)
    requires rest == [] || !IsWhitespace(rest[0])
    requires !StartsWith(Fence + w + rest, JsonFence)
    ensures Unfence(Fence + w + rest) == StripClosingFence(rest)
  {
    var t := Fence + w + rest;
    assert t[..|Fence|] == Fence;
    assert t[|Fence|..] == w + rest;
    TrimStartPrefix(w, rest);
  }

  /** A reply whose closing fence is missing keeps everything after its opening fence: "```json\n{" cleans to "{". */
  lemma UnclosedJsonFence()
    ensures CleanContent("```json\n{") == "{"
  {
    UnclosedJsonFenceTrimmed();
    UnclosedJsonFenceUnfenced();
  }

  lemma UnclosedJsonFenceTrimmed()
    ensures Trim("```json\n{") == "```json\n{"
  {
    var s: string := "```json\n{";
    assert !IsWhitespace(s[0]) && !IsWhitespace(s[|s| - 1]);
    TrimTrimmed(s);
  }

  lemma UnclosedJsonFenceUnfenced()
    ensures Unfence("```json\n{") == "{"
  {
    var w: string := "\n";
    var rest: string := "{";
    assert "```json\n{" == JsonFence + w + rest;
    assert IsWhitespace(w[0]) && !IsWhitespace(rest[0]);
    UnfenceJsonOpening(w, rest);
    assert !EndsWith(rest, Fence);
  }

  /** A reply that, once trimmed, does not open with a fence is only trimmed. */
  lemma CleanUnfenced(content: string)
    requires !StartsWith(Trim(content), Fence)
    ensures CleanContent(content) == Trim(content)
  {
  }

  /** Fencing a trimmed body with "```json" and any white space, then cleaning, gives the body back. */
  lemma CleanJsonFenced(w0: string, w1: string, body: string, w2: string, w3: string)
    requires AllWhitespace(w0) && AllWhitespace(w1) && AllWhitespace(w2) && AllWhitespace(w3)
    requires Trimmed(body)
    ensures CleanContent(w0 + JsonFence + w1 + body + w2 + Fence + w3) == body
  {
    var inner := JsonFence + w1 + body + w2 + Fence;
    assert w0 + JsonFence + w1 + body + w2 + Fence + w3 == w0 + inner + w3;
    FencedTrim(w0, inner, w3);
    UnfenceJson(w1, body, w2);
  }

  lemma UnfenceJson(w1: string, body: string, w2: string)
    requires AllWhitespace(w1) && AllWhitespace(w2) && Trimmed(body)
    ensures Unfence(JsonFence + w1 + body + w2 + Fence) == body
  {
    var inner := JsonFence + w1 + body + w2 + Fence;
    assert inner[..|JsonFence|] == JsonFence;
    assert inner[|JsonFence|..] == w1 + (body + w2 + Fence);
    OpenedBody(w1, body, w2);
  }

  /** Likewise for a bare "```" fence, when white space separates it from the body. */
  lemma CleanBareFenced(w0: string, w1: string, body: string, w2: string, w3: string)
    requires AllWhitespace(w0) && AllWhitespace(w1) && AllWhitespace(w2) && AllWhitespace(w3)
    requires |w1| > 0 && Trimmed(body)
    ensures CleanContent(w0 + Fence + w1 + body + w2 + Fence + w3) == body
  {
    var inner := Fence + w1 + body + w2 + Fence;
    assert w0 + Fence + w1 + body + w2 + Fence + w3 == w0 + inner + w3;
    FencedTrim(w0, inner, w3);
    UnfenceBare(w1, body, w2);
  }

  lemma UnfenceBare(w1: string, body: string, w2: string)
    requires AllWhitespace(w1) && AllWhitespace(w2) && Trimmed(body) && |w1| > 0
    ensures Unfence(Fence + w1 + body + w2 + Fence) == body
  {
    var inner := Fence + w1 + body + w2 + Fence;
    assert inner[..|Fence|] == Fence;
    assert inner[3] == w1[0];
    assert !StartsWith(inner, JsonFence) by {
      assert IsWhitespace(inner[3]);
      if |inner| >= 7 { assert inner[..7][3] == inner[3]; }
    }
    assert inner[|Fence|..] == w1 + (body + w2 + Fence);
    OpenedBody(w1, body, w2);
  }

  /** The common-case round trip: "```json\n" + body + "\n```" cleans to the body. */
  lemma CleanJsonBlock(body: string)
    requires Trimmed(body)
    ensures CleanContent(JsonFence + "\n" + body + "\n" + Fence) == body
  {
    var nl: string := "\n";
    var none: string := [];
    assert AllWhitespace(nl) by { assert IsWhitespace(nl[0]); }
    var block := JsonFence + nl + body + nl + Fence;
    assert none + JsonFence + nl + body + nl + Fence + none == block;
    CleanJsonFenced(none, nl, body, nl, none);
  }

  /** A fenced reply has nothing to trim: it starts and ends with a backtick. */
  lemma FencedTrim(w0: string, inner: string, w3: string)
    requires AllWhitespace(w0) && AllWhitespace(w3)
    requires |inner| >= 3 && inner[0] == '`' && inner[|inner| - 1] == '`'
    ensures Trim(w0 + inner + w3) == inner
  {
    TrimSurrounded(w0, inner, w3);
  }

  /** After the opening fence: white space, the body, white space, the closing fence. */
  lemma OpenedBody(w1: string, body: string, w2: string)
    requires AllWhitespace(w1) && AllWhitespace(w2) && Trimmed(body)
    ensures StripClosingFence(TrimStart(w1 + (body + w2 + Fence))) == body
  {
    if body == [] {
      assert w1 + (body + w2 + Fence) == (w1 + w2) + Fence;
      assert AllWhitespace(w1 + w2);
      TrimStartPrefix(w1 + w2, Fence);
      TrimEndSuffix([], []);
    } else {
      TrimStartPrefix(w1, body + w2 + Fence);
      var s := body + w2 + Fence;
      assert s[..|s| - 3] == body + w2;
      TrimEndSuffix(body, w2);
    }
  }

  // ---------------------------------------------------------------------
  // Rows written for the candidate

  /** `resumeUrl.replace('resumes/', '')`: the key inside the `resumes` bucket. */
  function StorageKey(resumeUrl: string): (key: string)
    ensures |key| == |resumeUrl| || |key| == |resumeUrl| - |BucketPrefix|
  {
    RemoveFirst(resumeUrl, BucketPrefix)
  }

  /** A URL carrying the bucket name in front loses exactly that prefix. */
  lemma StorageKeyOfBucketUrl(path: string)
    ensures StorageKey(BucketPrefix + path) == path
  {
    RemoveFirstLeading(BucketPrefix, path);
  }

  /** The candidate update: a name that is never empty, the other fields copied, status 'analyzed'. */
  function CandidateUpdateOf(p: ParsedResume): (u: CandidateUpdate)
    ensures u.fullName != ""
    ensures Truthy(p.fullName) ==> u.fullName == p.fullName.value
    ensures u.status == AnalyzedStatus
    ensures u.yearsOfExperience == p.yearsOfExperience && u.email == p.email && u.phone == p.phone
    ensures u.location == p.location && u.education == p.education && u.summary == p.summary
  {
    CandidateUpdate(OrDefault(p.fullName, UnknownName), p.email, p.phone, p.location,
                    p.yearsOfExperience, p.education, p.summary, AnalyzedStatus)
  }

  /** One skill row per parsed skill, in order, with non-empty category and proficiency. */
  function SkillRows(candidateId: string, skills: seq<ParsedSkill>): (rows: seq<SkillRow>)
    ensures |rows| == |skills|
    ensures forall i :: 0 <= i < |rows| ==>
              && rows[i].candidateId == candidateId
              && rows[i].skillName == skills[i].name
              && rows[i].category != "" && rows[i].proficiency != ""
              && (Truthy(skills[i].category) ==> rows[i].category == skills[i].category.value)
              && (Truthy(skills[i].proficiency) ==> rows[i].proficiency == skills[i].proficiency.value)
              && (!Truthy(skills[i].category) ==> rows[i].category == DefaultCategory)
              && (!Truthy(skills[i].proficiency) ==> rows[i].proficiency == DefaultProficiency)
  {
    seq(|skills|, i requires 0 <= i < |skills| =>
      SkillRow(candidateId, skills[i].name,
               OrDefault(skills[i].category, DefaultCategory),
               OrDefault(skills[i].proficiency, DefaultProficiency)))
  }

  /** One experience row per parsed work experience, in order, fields copied. */
  function ExperienceRows(candidateId: string, exps: seq<ParsedExperience>): (rows: seq<ExperienceRow>)
    ensures |rows| == |exps|
    ensures forall i :: 0 <= i < |rows| ==>
              rows[i] == ExperienceRow(candidateId, exps[i].companyName, exps[i].position,
                                       exps[i].startDate, exps[i].endDate, exps[i].description)
  {
    seq(|exps|, i requires 0 <= i < |exps| =>
      ExperienceRow(candidateId, exps[i].companyName, exps[i].position,
                    exps[i].startDate, exps[i].endDate, exps[i].description))
  }

  /** The inserts after a successful update: skills first, then experiences; an absent or empty list inserts nothing. */
  function Inserts(candidateId: string, p: ParsedResume): (effects: seq<Effect>)
    ensures |effects| == (if p.skills.Some? && |p.skills.value| > 0 then 1 else 0)
                       + (if p.workExperiences.Some? && |p.workExperiences.value| > 0 then 1 else 0)
    ensures forall i :: 0 <= i < |effects| ==> effects[i].InsertSkills? || effects[i].InsertExperiences?
    ensures forall i :: 0 < i < |effects| ==> effects[i].InsertExperiences?
    ensures |effects| > 0 && effects[0].InsertSkills? <==> p.skills.Some? && |p.skills.value| > 0
    ensures |effects| > 0 && effects[|effects| - 1].InsertExperiences? <==>
              p.workExperiences.Some? && |p.workExperiences.value| > 0
    ensures p.skills.Some? && |p.skills.value| > 0 ==>
              effects[0] == InsertSkills(SkillRows(candidateId, p.skills.value))
    ensures p.workExperiences.Some? && |p.workExperiences.value| > 0 ==>
              effects[|effects| - 1] == InsertExperiences(ExperienceRows(candidateId, p.workExperiences.value))
  {
    var skills := if p.skills.Some? && |p.skills.value| > 0
                  then [InsertSkills(SkillRows(candidateId, p.skills.value))] else [];
    var exps := if p.workExperiences.Some? && |p.workExperiences.value| > 0
                then [InsertExperiences(ExperienceRows(candidateId, p.workExperiences.value))] else [];
    var effects := skills + exps;
    effects
  }

  // ---------------------------------------------------------------------
  // The request handler

  /** The résumé named by the request downloads. */
  predicate Downloaded(resumeUrl: Option<string>, env: AnalyzeEnv) {
    Truthy(resumeUrl) && env.downloads(StorageKey(resumeUrl.value))
  }

  /** The résumé downloads and the model call answers with an ok status and some content. */
  predicate Replied(resumeUrl: Option<string>, env: AnalyzeEnv) {
    Downloaded(resumeUrl, env) && env.aiOk && Truthy(env.content)
  }

  /** The reply's cleaned content, which is what `JSON.parse` sees. */
  function Reply(resumeUrl: Option<string>, env: AnalyzeEnv): string
    requires Replied(resumeUrl, env)
  {
    CleanContent(env.content.value)
  }

  /** One run of the function for a request `{ resumeUrl, candidateId }`. */
  function Analyze(resumeUrl: Option<string>, candidateId: Option<string>, env: AnalyzeEnv): (run: AnalyzeRun)
    ensures !Truthy(resumeUrl) ==> run == AnalyzeRun([], Failure(MissingResumeUrl))
    ensures Truthy(resumeUrl) ==> |run.effects| >= 1 && run.effects[0] == Download(StorageKey(resumeUrl.value))
    ensures run.outcome.Success? ==>
              && Truthy(resumeUrl) && env.downloads(StorageKey(resumeUrl.value)) && env.aiOk
              && Truthy(env.content)
              && env.parse(CleanContent(env.content.value)) == Some(run.outcome.value)
    ensures run.outcome == Failure(NoContent) <==>
              Truthy(resumeUrl) && env.downloads(StorageKey(resumeUrl.value)) && env.aiOk && !Truthy(env.content)
    ensures run.outcome == Failure(DownloadFailed) <==>
              Truthy(resumeUrl) && !env.downloads(StorageKey(resumeUrl.value))
    ensures run.outcome == Failure(AiApiError) <==> Downloaded(resumeUrl, env) && !env.aiOk
    ensures run.outcome == Failure(ParseFailed) <==>
              Replied(resumeUrl, env) && env.parse(Reply(resumeUrl, env)).None?
    ensures run.outcome == Failure(UpdateFailed) <==>
              Replied(resumeUrl, env) && env.parse(Reply(resumeUrl, env)).Some? &&
              Truthy(candidateId) && !env.updateOk
    ensures Replied(resumeUrl, env) && env.parse(Reply(resumeUrl, env)).Some? &&
            (Truthy(candidateId) ==> env.updateOk) ==>
              run.outcome == Success(env.parse(Reply(resumeUrl, env)).value)
    ensures run.outcome.Failure? && run.outcome.error != UpdateFailed ==> |run.effects| <= 1
    ensures run.outcome == Failure(UpdateFailed) ==>
              Truthy(candidateId) && |run.effects| == 2 &&
              run.effects[1] == UpdateCandidate(candidateId.value, CandidateUpdateOf(env.parse(Reply(resumeUrl, env)).value))
    ensures !Truthy(candidateId) ==> |run.effects| <= 1
    ensures run.outcome.Success? && Truthy(candidateId) ==>
              run.effects == [Download(StorageKey(resumeUrl.value)),
                              UpdateCandidate(candidateId.value, CandidateUpdateOf(run.outcome.value))]
                             + Inserts(candidateId.value, run.outcome.value)
  {
    if !Truthy(resumeUrl) then AnalyzeRun([], Failure(MissingResumeUrl))
    else
      var key := StorageKey(resumeUrl.value);
      var download := [Download(key)];
      if !env.downloads(key) then AnalyzeRun(download, Failure(DownloadFailed))
      else if !env.aiOk then AnalyzeRun(download, Failure(AiApiError))
      else if !Truthy(env.content) then AnalyzeRun(download, Failure(NoContent))
      else
        match env.parse(CleanContent(env.content.value))
        case None => AnalyzeRun(download, Failure(ParseFailed))
        case Some(p) =>
          if !Truthy(candidateId) then AnalyzeRun(download, Success(p))
          else
            var update := download + [UpdateCandidate(candidateId.value, CandidateUpdateOf(p))];
            if !env.updateOk then AnalyzeRun(update, Failure(UpdateFailed))
            else AnalyzeRun(update + Inserts(candidateId.value, p), Success(p))
  }
}

=== FILE: resume_upload.dfy ===
/**
 * The resume upload handler: validate the file (type, then size), then
 * create the candidate, store the file under "<candidate id>/<time>_<name>",
 * record that path on the candidate and ask for its analysis. The first
 * failing step ends the run.
 *
 * The store and the function call are parameters (`UploadEnv`); every
 * operation the handler performs is recorded as an `UploadEffect`.
 */
module ResumeUploadFlow {
  import opened Wrappers
  import opened Text
  import ResumeAnalysis

  /** The `File` picked or dropped: name, MIME type, size in bytes. */
  datatype FileInfo = FileInfo(name: string, mimeType: string, size: nat)

  datatype UploadError = NotPdf | TooLarge | CreateFailed | UploadFailed | UpdateFailed | AnalysisFailed

  const MaxBytes: nat := 10 * 1024 * 1024
  const PendingName: string := "معالجة..."
  const PendingStatus: string := "pending"

  /** The type test, then the size test: files up to 10 MiB whose type mentions "pdf" pass. */
  function Validate(f: FileInfo): (r: Option<UploadError>)
    ensures r.None? <==> Includes(f.mimeType, "pdf") && f.size <= MaxBytes
    ensures r == Some(NotPdf) <==> !Includes(f.mimeType, "pdf")
    ensures r == Some(TooLarge) <==> Includes(f.mimeType, "pdf") && f.size > MaxBytes
  {
    if !Includes(f.mimeType, "pdf") then Some(NotPdf)
    else if f.size > MaxBytes then Some(TooLarge)
    else None
  }

  /** The size limit is inclusive: exactly 10485760 bytes pass, one more byte does not. */
  lemma SizeLimitBoundary(name: string)
    ensures Validate(FileInfo(name, "application/pdf", 10485760)).None?
    ensures Validate(FileInfo(name, "application/pdf", 10485761)) == Some(TooLarge)
  {
    assert OccursAt("application/pdf", "pdf", 12);
  }

  /** A file of the wrong type is reported as such whatever its size. */
  lemma TypeCheckedFirst(f: FileInfo)
    requires !Includes(f.mimeType, "pdf")
    ensures Validate(f) == Some(NotPdf)
  {
  }

  /** `${candidate.id}/${Date.now()}_${file.name}`. */
  function StoragePath(candidateId: string, now: nat, fileName: string): (path: string)
    ensures |path| > |candidateId| && path[..|candidateId|] == candidateId && path[|candidateId|] == '/'
    ensures EndsWith(path, fileName)
  {
    var path := candidateId + "/" + NatToString(now) + "_" + fileName;
    assert path[|path| - |fileName|..] == fileName;
    path
  }

  /** The characters of a generated candidate id (a lower-case UUID). */
  predicate IsUuidChar(c: char) {
    ('0' <= c <= '9') || ('a' <= c <= 'f') || c == '-'
  }

  /**
   * For a generated candidate id and a file name without '/', the path holds
   * no "resumes/", so the analysis downloads exactly the stored object.
   */
  lemma StorageKeyOfUploadPath(candidateId: string, now: nat, fileName: string)
    requires forall i :: 0 <= i < |candidateId| ==> IsUuidChar(candidateId[i])
    requires forall i :: 0 <= i < |fileName| ==> fileName[i] != '/'
    ensures ResumeAnalysis.StorageKey(StoragePath(candidateId, now, fileName)) == StoragePath(candidateId, now, fileName)
  {
    var path := StoragePath(candidateId, now, fileName);
    var n := |candidateId|;
    var digits := NatToString(now);
    assert path == candidateId + "/" + digits + "_" + fileName;
    forall k | 0 <= k < |path| && k != n ensures path[k] != '/' {
      if k < n {
        assert path[k] == candidateId[k];
      } else if k <= n + |digits| {
        assert path[k] == digits[k - n - 1];
        assert DigitValue(digits[k - n - 1], 10) >= 0;
      } else if k == n + |digits| + 1 {
        assert path[k] == '_';
      } else {
        assert path[k] == fileName[k - n - |digits| - 2];
      }
    }
    forall i ensures !OccursAt(path, ResumeAnalysis.BucketPrefix, i) {
      if 0 <= i && i + 8 <= |path| {
        if i + 7 == n {
          assert path[i] == candidateId[i];
          assert path[i..i + 8][0] == path[i];
        } else {
          assert path[i..i + 8][7] == path[i + 7];
        }
      }
    }
  }

  /** A store operation or function call the handler makes. */
  datatype UploadEffect =
    | CreateCandidate(fullName: string, status: string)
    | StoreObject(path: string)
    | SetResume(candidateId: string, resumeUrl: string, resumeFilename: string)
    | InvokeAnalysis(resumeUrl: string, analyzedId: string)

  /**
   * The outside world of one upload: the id of the created candidate (`None`
   * when creation fails), whether each later step succeeds, and `Date.now()`.
   */
  datatype UploadEnv = UploadEnv(createdId: Option<string>, uploadOk: bool, updateOk: bool, analysisOk: bool, now: nat)

  datatype UploadRun = UploadRun(effects: seq<UploadEffect>, error: Option<UploadError>)

  /** The four steps of an upload that goes through. */
  function Steps(f: FileInfo, candidateId: string, now: nat): seq<UploadEffect> {
    var path := StoragePath(candidateId, now, f.name);
    [CreateCandidate(PendingName, PendingStatus), StoreObject(path),
     SetResume(candidateId, path, f.name), InvokeAnalysis(path, candidateId)]
  }

  /** How many steps run: up to and including the first that fails. */
  function StepsRun(env: UploadEnv): nat {
    if env.createdId.None? then 1
    else if !env.uploadOk then 2
    else if !env.updateOk then 3
    else 4
  }

  /** `handleFileUpload`. */
  function HandleFileUpload(f: FileInfo, env: UploadEnv): (run: UploadRun)
    ensures Validate(f).Some? ==> run == UploadRun([], Validate(f))
    ensures Validate(f).None? ==>
              && |run.effects| == StepsRun(env)
              && run.effects[0] == CreateCandidate(PendingName, PendingStatus)
              && (env.createdId.Some? ==> run.effects == Steps(f, env.createdId.value, env.now)[..|run.effects|])
    ensures run.error.None? <==>
              Validate(f).None? && env.createdId.Some? && env.uploadOk && env.updateOk && env.analysisOk
    ensures run.error == Some(CreateFailed) <==> Validate(f).None? && env.createdId.None?
    ensures run.error == Some(UploadFailed) <==> Validate(f).None? && env.createdId.Some? && !env.uploadOk
    ensures run.error == Some(UpdateFailed) <==>
              Validate(f).None? && env.createdId.Some? && env.uploadOk && !env.updateOk
    ensures run.error == Some(AnalysisFailed) <==>
              Validate(f).None? && env.createdId.Some? && env.uploadOk && env.updateOk && !env.analysisOk
  {
    match Validate(f)
    case Some(e) => UploadRun([], Some(e))
    case None =>
      match env.createdId
      case None => UploadRun([CreateCandidate(PendingName, PendingStatus)], Some(CreateFailed))
      case Some(id) =>
        var steps := Steps(f, id, env.now);
        if !env.uploadOk then UploadRun(steps[..2], Some(UploadFailed))
        else if !env.updateOk then UploadRun(steps[..3], Some(UpdateFailed))
        else UploadRun(steps, if env.analysisOk then None else Some(AnalysisFailed))
  }

  /**
   * In a completed upload the path the file is stored under is the one saved
   * as `resume_url` and the one sent for analysis.
   */
  lemma OnePathThroughout(f: FileInfo, env: UploadEnv)
    requires HandleFileUpload(f, env).error.None?
    ensures var e := HandleFileUpload(f, env).effects;
            var path := StoragePath(env.createdId.value, env.now, f.name);
            e[1] == StoreObject(path) && e[2].resumeUrl == path && e[3].resumeUrl == path &&
            e[2].candidateId == e[3].analyzedId == env.createdId.value
  {
  }
}

=== FILE: scoring.dfy ===
/**
 * The match score of the ranking function: a skill share worth 60 points plus
 * an experience-proximity term worth 40, rounded half up like `Math.round`.
 * The arithmetic is exact: the score is a ratio of whole numbers, rounded.
 */
module Scoring {
  import opened Wrappers
  import SkillMatch

  const SkillWeight: nat := 60
  const ExperienceWeight: nat := 40
  const PointsPerYear: nat := 5

  function Distance(a: int, b: int): nat {
    if a >= b then a - b else b - a
  }

  /**
   * The experience term: proximity to the required years when both sides
   * state them, the full weight when the job states none, nothing otherwise.
   */
  function ExperienceTerm(required: Option<int>, candidate: Option<int>): (e: int)
    ensures 0 <= e <= ExperienceWeight
    ensures e == ExperienceWeight <==>
              !TruthyNumber(required) || (TruthyNumber(candidate) && candidate.value == required.value)
    ensures TruthyNumber(required) && !TruthyNumber(candidate) ==> e == 0
    ensures TruthyNumber(required) && TruthyNumber(candidate) ==>
              (e == 0 <==> Distance(candidate.value, required.value) * PointsPerYear >= ExperienceWeight)
  {
    if TruthyNumber(required) && TruthyNumber(candidate) then
      var penalty := Distance(candidate.value, required.value) * PointsPerYear;
      if penalty >= ExperienceWeight then 0 else ExperienceWeight - penalty
    else if !TruthyNumber(required) then ExperienceWeight
    else 0
  }

  /** A candidate closer to the required years never earns less experience credit. */
  lemma ExperienceCloserIsBetter(required: int, nearer: int, farther: int)
    requires required != 0 && nearer != 0 && farther != 0
    requires Distance(nearer, required) <= Distance(farther, required)
    ensures ExperienceTerm(Some(required), Some(nearer)) >= ExperienceTerm(Some(required), Some(farther))
  {
  }

  /** Under- and over-qualification by the same number of years cost the same. */
  lemma ExperienceSymmetric(required: int, d: nat)
    requires required != 0 && required + d != 0 && required - d != 0
    ensures ExperienceTerm(Some(required), Some(required + d)) == ExperienceTerm(Some(required), Some(required - d))
  {
  }

  /** `q` is within half a unit of `n / d`, a tie going up: what `Math.round(n / d)` returns. */
  predicate RoundsHalfUp(n: int, d: int, q: int)
    requires d > 0
  {
    2 * d * q - d <= 2 * n < 2 * d * q + d
  }

  /** `Math.round(n / d)`: the nearest whole number, halves rounded up. */
  function RoundHalfUp(n: int, d: int): (q: int)
    requires d > 0
    ensures RoundsHalfUp(n, d, q)
  {
    var q := (2 * n + d) / (2 * d);
    assert 2 * d * q <= 2 * n + d < 2 * d * q + 2 * d;
    q
  }

  /** At most one whole number is within half a unit of `n / d`, a tie going up. */
  lemma RoundsHalfUpUnique(n: int, d: int, q1: int, q2: int)
    requires d > 0 && RoundsHalfUp(n, d, q1) && RoundsHalfUp(n, d, q2)
    ensures q1 == q2
  {
    assert 2 * d * q1 < 2 * d * (q2 + 1);
    ProductCancel(2 * d, q1, q2 + 1);
    assert 2 * d * q2 < 2 * d * (q1 + 1);
    ProductCancel(2 * d, q2, q1 + 1);
  }

  /** `RoundHalfUp(n, d)` is the one whole number within half a unit of `n / d`, a tie going up. */
  lemma RoundHalfUpSpec(n: int, d: int)
    requires d > 0
    ensures RoundsHalfUp(n, d, RoundHalfUp(n, d))
    ensures forall q :: RoundsHalfUp(n, d, q) ==> q == RoundHalfUp(n, d)
  {
    forall q | RoundsHalfUp(n, d, q)
      ensures q == RoundHalfUp(n, d)
    {
      RoundsHalfUpUnique(n, d, q, RoundHalfUp(n, d));
    }
  }

  /** Multiplying by a positive factor keeps strict order, so the factor cancels. */
  lemma ProductCancel(c: int, a: int, b: int)
    requires c > 0 && c * a < c * b
    ensures a < b
  {
    assert c * (b - a) == c * b - c * a > 0;
  }

  /** Rounding keeps the order of the values it rounds. */
  lemma RoundHalfUpMonotone(n1: int, n2: int, d: int)
    requires d > 0 && n1 <= n2
    ensures RoundHalfUp(n1, d) <= RoundHalfUp(n2, d)
  {
    var q1 := RoundHalfUp(n1, d);
    var q2 := RoundHalfUp(n2, d);
    RoundHalfUpSpec(n1, d);
    RoundHalfUpSpec(n2, d);
    assert 2 * d * q1 - d < 2 * d * q2 + d;
    assert 2 * d * (q1 - q2) < 2 * d * 1;
    ProductCancel(2 * d, q1 - q2, 1);
  }

  /** A value that is not negative does not round to a negative number. */
  lemma RoundHalfUpNonNegative(n: int, d: int)
    requires d > 0 && 0 <= n
    ensures 0 <= RoundHalfUp(n, d)
  {
    var q := RoundHalfUp(n, d);
    RoundHalfUpSpec(n, d);
    assert 2 * d * -1 < 2 * d * q;
    ProductCancel(2 * d, -1, q);
  }

  /** A value of at most `d * bound` rounds to at most `bound`. */
  lemma RoundHalfUpAtMost(n: int, d: int, bound: int)
    requires d > 0 && n <= d * bound
    ensures RoundHalfUp(n, d) <= bound
  {
    var q := RoundHalfUp(n, d);
    RoundHalfUpSpec(n, d);
    assert 2 * d * q < 2 * d * (bound + 1);
    ProductCancel(2 * d, q, bound + 1);
  }

  /** The rounded skill share is at least 0, and at most 60 when no more skills matched than were required. */
  lemma SkillShareBounds(matched: nat, required: nat)
    requires required > 0
    ensures 0 <= RoundHalfUp(SkillWeight * matched, required)
    ensures matched <= required ==> RoundHalfUp(SkillWeight * matched, required) <= SkillWeight
  {
    RoundHalfUpNonNegative(SkillWeight * matched, required);
    if matched <= required {
      assert SkillWeight * matched <= required * SkillWeight;
      RoundHalfUpAtMost(SkillWeight * matched, required, SkillWeight);
    }
  }

  /**
   * The match score from the skill counts and the experience term: with no
   * required skills the skill share is 0, otherwise 60 times the share of
   * matched to required skills. The experience term is a whole number, so
   * rounding the sum is rounding the skill share and adding the term.
   */
  function Combine(matched: nat, required: nat, experience: int): (s: int)
    requires 0 <= experience <= ExperienceWeight
    ensures s >= 0
    ensures required == 0 ==> s == experience
    ensures matched <= required ==> s <= SkillWeight + ExperienceWeight
  {
    if required == 0 then experience
    else
      SkillShareBounds(matched, required);
      RoundHalfUp(SkillWeight * matched, required) + experience
  }

  /**
   * With required skills, the score is the exact value of
   * `(matched / required) * 60 + experience` rounded half up.
   */
  lemma CombineRounds(matched: nat, required: nat, experience: int)
    requires required > 0 && 0 <= experience <= ExperienceWeight
    ensures var s := Combine(matched, required, experience);
            2 * required * s - required <= 2 * (SkillWeight * matched + experience * required)
                                        < 2 * required * s + required
  {
    var q := RoundHalfUp(SkillWeight * matched, required);
    RoundHalfUpSpec(SkillWeight * matched, required);
    assert 2 * required * (q + experience) == 2 * required * q + 2 * (experience * required);
  }

  /** `match_score` for a candidate's skills and years against a job's. */
  function MatchScore(candidateSkills: seq<string>, requiredSkills: seq<string>,
                      requiredYears: Option<int>, candidateYears: Option<int>): (s: int)
    ensures s >= 0
    ensures |SkillMatch.MatchedSkills(candidateSkills, requiredSkills)| <= |requiredSkills| ==> s <= 100
  {
    Combine(|SkillMatch.MatchedSkills(candidateSkills, requiredSkills)|, |requiredSkills|,
            ExperienceTerm(requiredYears, candidateYears))
  }

  /** More matched skills never lower the score. */
  lemma CombineMonotone(m1: nat, m2: nat, r: nat, e: int)
    requires 0 <= e <= ExperienceWeight && m1 <= m2
    ensures Combine(m1, r, e) <= Combine(m2, r, e)
  {
    if r > 0 {
      RoundHalfUpMonotone(SkillWeight * m1, SkillWeight * m2, r);
    }
  }

  /** A job with no required skills and no required years scores every candidate 40. */
  lemma NoRequirementsScoresForty(candidateSkills: seq<string>, candidateYears: Option<int>)
    ensures MatchScore(candidateSkills, [], None, candidateYears) == 40
  {
  }

  /** A job requiring 5 years gives a candidate with 3 an experience term of 30. */
  lemma ExperienceExample()
    ensures ExperienceTerm(Some(5), Some(3)) == 30
  {
  }

  /** An experience value of 0 counts as unknown: a job requiring 0 years asks for nothing. */
  lemma ZeroYearsIsAbsent(candidateYears: Option<int>, requiredYears: Option<int>)
    ensures ExperienceTerm(Some(0), candidateYears) == ExperienceTerm(None, candidateYears) == 40
    ensures ExperienceTerm(requiredYears, Some(0)) == ExperienceTerm(requiredYears, None)
  {
  }

  /** The score is the combination of the matched-skill count and the experience term. */
  lemma ScoreFromParts(candidateSkills: seq<string>, requiredSkills: seq<string>,
                       requiredYears: Option<int>, candidateYears: Option<int>, matched: nat, experience: int)
    requires |SkillMatch.MatchedSkills(candidateSkills, requiredSkills)| == matched
    requires ExperienceTerm(requiredYears, candidateYears) == experience
    ensures 0 <= experience <= ExperienceWeight
    ensures MatchScore(candidateSkills, requiredSkills, requiredYears, candidateYears)
            == Combine(matched, |requiredSkills|, experience)
  {
  }

  /** Skills Python and SQL against python and machine learning, 3 years against 5: one of two skills matched (30) and 3 of 5 years (30). */
  lemma PythonScoreExample()
    ensures MatchScore(["Python", "SQL"], ["python", "machine learning"], Some(5), Some(3)) == 60
  {
    PythonScoreParts();
    assert Combine(1, 2, 30) == 60 by {
      assert RoundHalfUp(60 * 1, 2) == 30;
    }
  }

  lemma PythonScoreParts()
    ensures MatchScore(["Python", "SQL"], ["python", "machine learning"], Some(5), Some(3)) == Combine(1, 2, 30)
  {
    PythonMatchCount();
    ExperienceExample();
    ScoreFromParts(["Python", "SQL"], ["python", "machine learning"], Some(5), Some(3), 1, 30);
  }

  lemma PythonMatchCount()
    ensures |SkillMatch.MatchedSkills(["Python", "SQL"], ["python", "machine learning"])| == 1
  {
    SkillMatch.PythonExample();
  }

  /** The score is not clamped: two candidate skills matching one required skill score 160. */
  lemma ScoreCanExceedHundred()
    ensures MatchScore(["Java", "JavaScript"], ["java"], None, None) == 160
  {
    JavaScoreParts();
    assert Combine(2, 1, 40) == 160 by {
      assert RoundHalfUp(60 * 2, 1) == 120;
    }
  }

  lemma JavaScoreParts()
    ensures MatchScore(["Java", "JavaScript"], ["java"], None, None) == Combine(2, 1, 40)
  {
    JavaMatchCount();
    ScoreFromParts(["Java", "JavaScript"], ["java"], None, None, 2, 40);
  }

  lemma JavaMatchCount()
    ensures |SkillMatch.MatchedSkills(["Java", "JavaScript"], ["java"])| == 2
  {
    SkillMatch.MatchedMayOutnumberRequired();
  }
}

=== FILE: seqs.dfy ===
/** Order-preserving selection from a sequence (JavaScript's `Array.prototype.filter`). */
module Seqs {

  /** `a` can be obtained from `b` by deleting elements, keeping the order of the rest. */
  predicate IsSubseq<T(==,!new)>(a: seq<T>, b: seq<T>)
    decreases |b|
  {
    if |a| == 0 then true
    else if |b| == 0 then false
    else (a[0] == b[0] && IsSubseq(a[1..], b[1..])) || IsSubseq(a, b[1..])
  }

  /** `f` applied to every element of `s`, in order. */
  function Map<A, B>(f: A -> B, s: seq<A>): (r: seq<B>)
    ensures |r| == |s|
    ensures forall i :: 0 <= i < |s| ==> r[i] == f(s[i])
  {
    if |s| == 0 then [] else [f(s[0])] + Map(f, s[1..])
  }

  /** The elements of `s` satisfying `p`, in their order, duplicates kept. */
  function Filter<T(==,!new)>(p: T -> bool, s: seq<T>): (r: seq<T>)
    ensures IsSubseq(r, s)
    ensures forall x :: x in r <==> x in s && p(x)
    ensures forall x :: multiset(r)[x] == if p(x) then multiset(s)[x] else 0
    ensures |r| <= |s|
  {
    if |s| == 0 then []
    else
      var rest := Filter(p, s[1..]);
      assert s == [s[0]] + s[1..];
      if p(s[0]) then
        var r := [s[0]] + rest;
        assert r[1..] == rest;
        r
      else rest
  }

  /** A subsequence never holds an element more often than the sequence it comes from. */
  lemma {:induction false} SubseqMultiset<T(!new)>(a: seq<T>, b: seq<T>)
    requires IsSubseq(a, b)
    ensures multiset(a) <= multiset(b)
    decreases |b|
  {
    if |a| == 0 {
    } else {
      assert b == [b[0]] + b[1..];
      if a[0] == b[0] && IsSubseq(a[1..], b[1..]) {
        SubseqMultiset(a[1..], b[1..]);
        assert a == [a[0]] + a[1..];
      } else {
        SubseqMultiset(a, b[1..]);
      }
    }
  }

  /**
   * The contract of `Filter` determines its result: a subsequence of `s` that
   * holds every element satisfying `p` as often as `s` does, and no other
   * element, is `Filter(p, s)`.
   */
  lemma {:induction false} FilterUnique<T(!new)>(p: T -> bool, s: seq<T>, a: seq<T>)
    requires IsSubseq(a, s)
    requires forall x :: multiset(a)[x] == if p(x) then multiset(s)[x] else 0
    ensures a == Filter(p, s)
    decreases |s|
  {
    if |s| == 0 {
    } else {
      var h := s[0];
      var t := s[1..];
      assert s == [h] + t;
      if p(h) {
        assert multiset(a)[h] == multiset(s)[h] > 0;
        assert |a| > 0;
        assert a == [a[0]] + a[1..];
        if a[0] == h && IsSubseq(a[1..], t) {
          forall x ensures multiset(a[1..])[x] == if p(x) then multiset(t)[x] else 0 {
            assert multiset(a)[x] == multiset([a[0]])[x] + multiset(a[1..])[x];
          }
          FilterUnique(p, t, a[1..]);
        } else {
          SubseqMultiset(a, t);
          assert false;
        }
      } else {
        assert multiset(a)[h] == 0;
        assert IsSubseq(a, t) by {
          if |a| > 0 {
            assert a[0] in multiset(a);
            assert a[0] != h;
          }
        }
        forall x ensures multiset(a)[x] == if p(x) then multiset(t)[x] else 0 {
          if x != h {
            assert multiset(s)[x] == multiset(t)[x];
          }
        }
        FilterUnique(p, t, a);
      }
    }
  }

  /** Filtering with a predicate every element satisfies keeps the whole sequence. */
  lemma {:induction false} FilterAll<T(!new)>(p: T -> bool, s: seq<T>)
    requires forall i :: 0 <= i < |s| ==> p(s[i])
    ensures Filter(p, s) == s
    decreases |s|
  {
    if |s| > 0 {
      FilterAll(p, s[1..]);
      assert Filter(p, s) == [s[0]] + Filter(p, s[1..]);
      assert [s[0]] + s[1..] == s;
    }
  }

  /** Appending one rejected element to elements that all pass leaves the filter with exactly those elements. */
  lemma FilterAppendRejected<T(!new)>(p: T -> bool, s: seq<T>, v: T)
    requires forall i :: 0 <= i < |s| ==> p(s[i])
    requires !p(v)
    ensures Filter(p, s + [v]) == s
  {
    FilterConcat(p, s, [v]);
    FilterAll(p, s);
    FilterNone(p, [v]);
    assert s + [] == s;
  }

  /** A selection from a sequence whose keys are distinct has distinct keys. */
  lemma {:induction false} FilterKeysDistinct<T(!new), K>(p: T -> bool, key: T -> K, s: seq<T>)
    requires forall a, b :: 0 <= a < b < |s| ==> key(s[a]) != key(s[b])
    ensures forall a, b :: 0 <= a < b < |Filter(p, s)| ==> key(Filter(p, s)[a]) != key(Filter(p, s)[b])
    decreases |s|
  {
    if |s| > 0 {
      var tail := s[1..];
      FilterKeysDistinct(p, key, tail);
      var rest := Filter(p, tail);
      forall j | 0 <= j < |rest| ensures key(rest[j]) != key(s[0]) {
        assert rest[j] in tail;
        var k :| 0 <= k < |tail| && tail[k] == rest[j];
        assert s[k + 1] == rest[j];
      }
      var r := Filter(p, s);
      if p(s[0]) {
        assert r == [s[0]] + rest;
        forall a, b | 0 <= a < b < |r| ensures key(r[a]) != key(r[b]) {
          assert r[b] == rest[b - 1];
          if a > 0 {
            assert r[a] == rest[a - 1];
          }
        }
      } else {
        assert r == rest;
      }
    }
  }

  /** Filtering with a predicate no element satisfies gives the empty sequence. */
  lemma {:induction false} FilterNone<T(!new)>(p: T -> bool, s: seq<T>)
    requires forall i :: 0 <= i < |s| ==> !p(s[i])
    ensures Filter(p, s) == []
    decreases |s|
  {
    if |s| > 0 {
      FilterNone(p, s[1..]);
    }
  }

  /** Filtering a concatenation filters each part. */
  lemma {:induction false} FilterConcat<T(!new)>(p: T -> bool, a: seq<T>, b: seq<T>)
    ensures Filter(p, a + b) == Filter(p, a) + Filter(p, b)
    decreases |a|
  {
    if |a| == 0 {
      assert a + b == b;
    } else {
      var ab := a + b;
      assert ab[0] == a[0] && ab[1..] == a[1..] + b;
      FilterConcat(p, a[1..], b);
      if p(a[0]) {
        calc {
          Filter(p, ab);
          [a[0]] + Filter(p, a[1..] + b);
          [a[0]] + (Filter(p, a[1..]) + Filter(p, b));
          ([a[0]] + Filter(p, a[1..])) + Filter(p, b);
        }
      } else {
        assert Filter(p, ab) == Filter(p, a[1..] + b);
      }
    }
  }
}

=== FILE: skill_match.dfy ===
/**
 * Skill matching of the ranking function: a candidate skill and a required
 * skill relate when, lower-cased, either string contains the other. Matched
 * skills are reported on the candidate's side, missing skills on the job's.
 */
module SkillMatch {
  import opened Text
  import Seqs

  /** Case-insensitive containment in either direction. */
  predicate Related(candidateSkill: string, requiredSkill: string) {
    var c := Lower(candidateSkill);
    var r := Lower(requiredSkill);
    Includes(c, r) || Includes(r, c)
  }

  /** The relation does not depend on which side a skill is on. */
  lemma RelatedSymmetric(a: string, b: string)
    ensures Related(a, b) <==> Related(b, a)
  {
  }

  /** The relation ignores letter case on either side. */
  lemma RelatedIgnoresCase(a: string, b: string)
    ensures Related(a, b) <==> Related(Lower(a), b)
    ensures Related(a, b) <==> Related(a, Lower(b))
  {
    LowerIdempotent(a);
    LowerIdempotent(b);
  }

  /** Every skill relates to itself, and exactly when one lower-cased name occurs inside the other. */
  lemma RelatedIffOccurs(a: string, b: string)
    ensures Related(a, a)
    ensures Related(a, b) <==> exists i :: OccursAt(Lower(a), Lower(b), i) || OccursAt(Lower(b), Lower(a), i)
  {
    IncludesSelf(Lower(a));
    IncludesIffOccurs(Lower(a), Lower(b));
    IncludesIffOccurs(Lower(b), Lower(a));
  }

  /** The candidate skill relates to at least one required skill. */
  predicate RelatesToRequired(skill: string, required: seq<string>) {
    exists i :: 0 <= i < |required| && Related(skill, required[i])
  }

  /** The required skill relates to at least one candidate skill. */
  predicate Covered(requiredSkill: string, candidate: seq<string>) {
    exists i :: 0 <= i < |candidate| && Related(candidate[i], requiredSkill)
  }

  /**
   * `matchedSkills`: the candidate skills relating to some required skill,
   * in the candidate's order and as often as the candidate lists them.
   */
  function MatchedSkills(candidate: seq<string>, required: seq<string>): (m: seq<string>)
    ensures Seqs.IsSubseq(m, candidate)
    ensures forall s :: multiset(m)[s] == if RelatesToRequired(s, required) then multiset(candidate)[s] else 0
    ensures forall s :: s in m <==> s in candidate && RelatesToRequired(s, required)
  {
    Seqs.Filter(s => RelatesToRequired(s, required), candidate)
  }

  /**
   * `missingSkills`: the required skills no candidate skill relates to, in
   * the job's order.
   */
  function MissingSkills(candidate: seq<string>, required: seq<string>): (ms: seq<string>)
    ensures Seqs.IsSubseq(ms, required)
    ensures forall r :: multiset(ms)[r] == if Covered(r, candidate) then 0 else multiset(required)[r]
    ensures forall r :: r in ms <==> r in required && !Covered(r, candidate)
  {
    Seqs.Filter(r => !Covered(r, candidate), required)
  }

  /**
   * The contract of `MatchedSkills` pins the result down: any subsequence of
   * the candidate's skills with those multiplicities is the matched list.
   */
  lemma MatchedSkillsExact(candidate: seq<string>, required: seq<string>, m: seq<string>)
    requires Seqs.IsSubseq(m, candidate)
    requires forall s :: multiset(m)[s] == if RelatesToRequired(s, required) then multiset(candidate)[s] else 0
    ensures m == MatchedSkills(candidate, required)
  {
    Seqs.FilterUnique(s => RelatesToRequired(s, required), candidate, m);
  }

  /** Likewise any subsequence of the required skills with the multiplicities of `MissingSkills` is it. */
  lemma MissingSkillsExact(candidate: seq<string>, required: seq<string>, ms: seq<string>)
    requires Seqs.IsSubseq(ms, required)
    requires forall r :: multiset(ms)[r] == if Covered(r, candidate) then 0 else multiset(required)[r]
    ensures ms == MissingSkills(candidate, required)
  {
    Seqs.FilterUnique(r => !Covered(r, candidate), required, ms);
  }

  /** Every required skill is either covered by the candidate or missing, never both. */
  lemma RequiredSkillPartition(candidate: seq<string>, required: seq<string>, r: string)
    requires r in required
    ensures Covered(r, candidate) != (r in MissingSkills(candidate, required))
  {
  }

  /** The relation reads the same from both sides (only the reporting side differs). */
  lemma RelatedCovered(candidate: seq<string>, required: seq<string>, i: nat, j: nat)
    requires i < |candidate| && j < |required|
    requires Related(candidate[i], required[j])
    ensures candidate[i] in MatchedSkills(candidate, required)
    ensures required[j] !in MissingSkills(candidate, required)
  {
  }

  /** Without required skills nothing is matched and nothing is missing. */
  lemma NoRequiredSkills(candidate: seq<string>)
    ensures MatchedSkills(candidate, []) == []
    ensures MissingSkills(candidate, []) == []
  {
    Seqs.FilterNone(s => RelatesToRequired(s, []), candidate);
  }

  /** A candidate without skills covers nothing: every required skill is missing. */
  lemma NoCandidateSkills(required: seq<string>)
    ensures MatchedSkills([], required) == []
    ensures MissingSkills([], required) == required
  {
    Seqs.FilterAll(r => !Covered(r, []), required);
  }

  /** An empty candidate skill relates to every required skill, since every string includes "". */
  lemma EmptySkillMatchesEverything(candidate: seq<string>, required: seq<string>)
    requires "" in candidate && |required| > 0
    ensures "" in MatchedSkills(candidate, required)
    ensures MissingSkills(candidate, required) == []
  {
    var k :| 0 <= k < |candidate| && candidate[k] == "";
    forall j | 0 <= j < |required| ensures Related("", required[j]) {
      IncludesEmpty(Lower(required[j]));
    }
    assert Related("", required[0]);
    forall j | 0 <= j < |required| ensures !!Covered(required[j], candidate) {
      assert Related(candidate[k], required[j]);
    }
    Seqs.FilterNone(r => !Covered(r, candidate), required);
  }

  /**
   * Two candidate skills may match the same required skill, so there can be
   * more matched skills than required ones.
   */
  lemma MatchedMayOutnumberRequired()
    ensures MatchedSkills(["Java", "JavaScript"], ["java"]) == ["Java", "JavaScript"]
  {
    assert Lower("Java") == "java";
    assert Lower("JavaScript")[..4] == "java";
    IncludesSelf("java");
    assert OccursAt(Lower("JavaScript"), "java", 0);
    assert Related("Java", ["java"][0]);
    assert Related("JavaScript", ["java"][0]);
    Seqs.FilterAll(s => RelatesToRequired(s, ["java"]), ["Java", "JavaScript"]);
  }

  /** How the skills Python and SQL relate to the required python and machine learning. */
  lemma PythonExampleRelations()
    ensures Related("Python", "python")
    ensures !Related("SQL", "python") && !Related("SQL", "machine learning")
    ensures !Related("Python", "machine learning")
  {
    PythonRelated();
    SqlUnrelated();
    PythonUnrelatedToMachineLearning();
  }

  lemma PythonUnrelatedToMachineLearning()
    ensures !Related("Python", "machine learning")
  {
    LowerLiterals();
    Unrelated("machine learning", "python");
  }

  lemma PythonRelated()
    ensures Related("Python", "python")
  {
    LowerLiterals();
    IncludesSelf("python");
  }

  lemma SqlUnrelated()
    ensures !Related("SQL", "python") && !Related("SQL", "machine learning")
  {
    LowerLiterals();
    Unrelated("python", "sql");
    Unrelated("machine learning", "sql");
  }

  lemma LowerLiterals()
    ensures Lower("Python") == "python" && Lower("python") == "python"
    ensures Lower("SQL") == "sql"
    ensures Lower("machine learning") == "machine learning"
  {
  }

  /** Two strings, each lacking the other's first character, include each other in neither direction. */
  lemma Unrelated(a: string, b: string)
    requires |a| > 0 && |b| > 0
    requires forall i :: 0 <= i < |a| ==> a[i] != b[0]
    requires forall i :: 0 <= i < |b| ==> b[i] != a[0]
    ensures !Includes(a, b) && !Includes(b, a)
  {
    NotIncludedByFirstChar(a, b);
    NotIncludedByFirstChar(b, a);
  }

  /** Skills Python and SQL against python and machine learning: "Python" matches "python"; "machine learning" stays missing. */
  lemma PythonExample()
    ensures MatchedSkills(["Python", "SQL"], ["python", "machine learning"]) == ["Python"]
    ensures MissingSkills(["Python", "SQL"], ["python", "machine learning"]) == ["machine learning"]
  {
    PythonExampleMatched();
    PythonExampleMissing();
  }

  lemma PythonExampleMatched()
    ensures MatchedSkills(["Python", "SQL"], ["python", "machine learning"]) == ["Python"]
  {
    var cand := ["Python", "SQL"];
    var req := ["python", "machine learning"];
    PythonRelatesToRequired();
    SqlRelatesToNothing();
    var p := s => RelatesToRequired(s, req);
    assert cand[1..] == ["SQL"] && ["SQL"][1..] == [];
    assert Seqs.Filter(p, ["SQL"]) == [];
  }

  lemma PythonExampleMissing()
    ensures MissingSkills(["Python", "SQL"], ["python", "machine learning"]) == ["machine learning"]
  {
    var cand := ["Python", "SQL"];
    var req := ["python", "machine learning"];
    PythonRequirementCovered();
    MachineLearningUncovered();
    var q := r => !Covered(r, cand);
    assert req[1..] == ["machine learning"] && ["machine learning"][1..] == [];
    assert Seqs.Filter(q, ["machine learning"]) == ["machine learning"];
  }

  // The four facts behind `PythonExample`, one lemma each to keep every proof small.

  lemma PythonRelatesToRequired()
    ensures RelatesToRequired("Python", ["python", "machine learning"])
  {
    PythonExampleRelations();
    assert Related("Python", ["python", "machine learning"][0]);
  }

  lemma SqlRelatesToNothing()
    ensures !RelatesToRequired("SQL", ["python", "machine learning"])
  {
    PythonExampleRelations();
  }

  lemma PythonRequirementCovered()
    ensures Covered("python", ["Python", "SQL"])
  {
    PythonExampleRelations();
    assert Related(["Python", "SQL"][0], "python");
  }

  lemma MachineLearningUncovered()
    ensures !Covered("machine learning", ["Python", "SQL"])
  {
    PythonExampleRelations();
  }
}

=== FILE: text.dfy ===
/**
 * The JavaScript string operations the application relies on, over strings
 * as sequences of characters: `includes`/`indexOf`, `startsWith`/`endsWith`,
 * `trim`, `toLowerCase`, `replace` with a string pattern, `parseInt`, and
 * the decimal rendering of a whole number.
 */
module Text {
  import opened Wrappers

  /** `sub` occurs in `s` starting at index `i`. */
  predicate OccursAt(s: string, sub: string, i: int) {
    0 <= i && i + |sub| <= |s| && s[i..i + |sub|] == sub
  }

  /** `s.indexOf(sub, from)`: the first occurrence at or after `from`, or -1 when there is none. */
  function IndexOfFrom(s: string, sub: string, from: nat): (r: int)
    ensures r == -1 || (from <= r && OccursAt(s, sub, r))
    ensures r == -1 ==> forall i :: from <= i ==> !OccursAt(s, sub, i)
    ensures r >= 0 ==> forall i :: from <= i < r ==> !OccursAt(s, sub, i)
    decreases |s| - from
  {
    if from + |sub| > |s| then -1
    else if s[from..from + |sub|] == sub then from
    else IndexOfFrom(s, sub, from + 1)
  }

  function IndexOf(s: string, sub: string): (r: int)
    ensures r == -1 || OccursAt(s, sub, r)
    ensures r == -1 <==> forall i :: !OccursAt(s, sub, i)
    ensures r >= 0 ==> forall i :: i < r ==> !OccursAt(s, sub, i)
  {
    IndexOfFrom(s, sub, 0)
  }

  /** `s.includes(sub)`. */
  predicate Includes(s: string, sub: string)
  {
    IndexOf(s, sub) >= 0
  }

  /** `includes` holds exactly when the pattern occurs somewhere. */
  lemma IncludesIffOccurs(s: string, sub: string)
    ensures Includes(s, sub) <==> exists i :: OccursAt(s, sub, i)
  {
  }

  /** Every string includes the empty string. */
  lemma IncludesEmpty(s: string)
    ensures Includes(s, "")
  {
    assert OccursAt(s, "", 0);
  }

  /** Every string includes itself. */
  lemma IncludesSelf(s: string)
    ensures Includes(s, s)
  {
    assert OccursAt(s, s, 0);
  }

  /** A non-empty pattern whose first character never appears in `s` does not occur in `s`. */
  lemma NotIncludedByFirstChar(s: string, sub: string)
    requires |sub| > 0
    requires forall i :: 0 <= i < |s| ==> s[i] != sub[0]
    ensures !Includes(s, sub)
  {
    forall i ensures !OccursAt(s, sub, i) {
      if 0 <= i && i + |sub| <= |s| {
        assert s[i..i + |sub|][0] == s[i];
      }
    }
  }

  /** `s.startsWith(p)`. */
  predicate StartsWith(s: string, p: string) {
    |p| <= |s| && s[..|p|] == p
  }

  /** `s.endsWith(p)`. */
  predicate EndsWith(s: string, p: string) {
    |p| <= |s| && s[|s| - |p|..] == p
  }

  /**
   * The characters `trim` and the regular-expression class `\s` treat as
   * white space: the ECMAScript WhiteSpace and LineTerminator code points.
   */
  predicate IsWhitespace(c: char) {
    || c == '\t' || c == '\n' || c == '\U{000B}' || c == '\U{000C}' || c == '\r' || c == ' '
    || c == '\U{00A0}' || c == '\U{1680}' || ('\U{2000}' <= c <= '\U{200A}')
    || c == '\U{2028}' || c == '\U{2029}' || c == '\U{202F}' || c == '\U{205F}'
    || c == '\U{3000}' || c == '\U{FEFF}'
  }

  predicate AllWhitespace(s: string) {
    forall i :: 0 <= i < |s| ==> IsWhitespace(s[i])
  }

  /** Neither starts nor ends with white space. */
  predicate Trimmed(s: string) {
    s == [] || (!IsWhitespace(s[0]) && !IsWhitespace(s[|s| - 1]))
  }

  /** The end of the run of white space in `s` that starts at `k`. */
  function SpaceEnd(s: string, k: nat): (e: nat)
    requires k <= |s|
    ensures k <= e <= |s|
    ensures forall j :: k <= j < e ==> IsWhitespace(s[j])
    ensures e == |s| || !IsWhitespace(s[e])
    decreases |s| - k
  {
    if k < |s| && IsWhitespace(s[k]) then SpaceEnd(s, k + 1) else k
  }

  /** The start of the run of white space in `s` that ends at `k`. */
  function SpaceStart(s: string, k: nat): (b: nat)
    requires k <= |s|
    ensures b <= k
    ensures forall j :: b <= j < k ==> IsWhitespace(s[j])
    ensures b == 0 || !IsWhitespace(s[b - 1])
    decreases k
  {
    if k > 0 && IsWhitespace(s[k - 1]) then SpaceStart(s, k - 1) else k
  }

  /** `trimStart`: the suffix left after the longest all-white-space prefix. */
  function TrimStart(s: string): (r: string)
    ensures |r| <= |s| && r == s[|s| - |r|..]
    ensures AllWhitespace(s[..|s| - |r|])
    ensures r == [] || !IsWhitespace(r[0])
  {
    var i := SpaceEnd(s, 0);
    assert s[..i] == s[..i][..];
    s[i..]
  }

  /** `trimEnd`: the prefix left after the longest all-white-space suffix. */
  function TrimEnd(s: string): (r: string)
    ensures |r| <= |s| && r == s[..|r|]
    ensures AllWhitespace(s[|r|..])
    ensures r == [] || !IsWhitespace(r[|r| - 1])
  {
    var j := SpaceStart(s, |s|);
    assert forall k :: 0 <= k < |s| - j ==> s[j..][k] == s[j + k];
    s[..j]
  }

  /** `trim`: white space removed from both ends. */
  function Trim(s: string): (r: string)
    ensures Trimmed(r)
    ensures exists i, j :: 0 <= i <= j <= |s| && r == s[i..j]
                           && AllWhitespace(s[..i]) && AllWhitespace(s[j..])
  {
    var t := TrimStart(s);
    var r := TrimEnd(t);
    TrimParts(s);
    assert r != [] ==> r[0] == t[0];
    r
  }

  /** The pieces `trim` cuts off are white space, and what it keeps is the middle of the input. */
  lemma TrimParts(s: string)
    ensures var i := SpaceEnd(s, 0); var r := TrimEnd(TrimStart(s));
            && i + |r| <= |s| && r == s[i..i + |r|]
            && AllWhitespace(s[..i]) && AllWhitespace(s[i + |r|..])
  {
    var i := SpaceEnd(s, 0);
    var t := s[i..];
    var j := SpaceStart(t, |t|);
    var r := t[..j];
    assert TrimEnd(TrimStart(s)) == r;
    SliceOfSuffix(s, i, j);
    assert AllWhitespace(t[j..]);
  }

  /** Slicing the suffix of `s` from `i` is slicing `s` itself, shifted by `i`. */
  lemma SliceOfSuffix<T>(s: seq<T>, i: nat, k: nat)
    requires i + k <= |s|
    ensures s[i..][..k] == s[i..i + k]
    ensures s[i..][k..] == s[i + k..]
  {
  }

  /** A piece of a piece of `s` is a piece of `s`. */
  lemma SliceOfSlice<T>(s: seq<T>, t: seq<T>, r: seq<T>)
    requires exists i, j :: 0 <= i <= j <= |s| && t == s[i..j]
    requires exists i, j :: 0 <= i <= j <= |t| && r == t[i..j]
    ensures exists i, j :: 0 <= i <= j <= |s| && r == s[i..j]
  {
    var a, b :| 0 <= a <= b <= |s| && t == s[a..b];
    var c, d :| 0 <= c <= d <= |t| && r == t[c..d];
    assert forall k :: 0 <= k < |r| ==> r[k] == t[c + k] == s[a + c + k];
    assert r == s[a + c..a + d];
  }

  /** Removing white space in front of a string that starts with something else gives that string. */
  lemma {:induction false} TrimStartPrefix(w: string, x: string)
    requires AllWhitespace(w)
    requires x == [] || !IsWhitespace(x[0])
    ensures TrimStart(w + x) == x
    decreases |w|
  {
    if |w| > 0 {
      assert (w + x)[1..] == w[1..] + x;
      TrimStartPrefix(w[1..], x);
    } else {
      assert w + x == x;
    }
  }

  /** Removing white space after a string that ends with something else gives that string. */
  lemma {:induction false} TrimEndSuffix(x: string, w: string)
    requires AllWhitespace(w)
    requires x == [] || !IsWhitespace(x[|x| - 1])
    ensures TrimEnd(x + w) == x
    decreases |w|
  {
    if |w| > 0 {
      assert (x + w)[..|x + w| - 1] == x + w[..|w| - 1];
      TrimEndSuffix(x, w[..|w| - 1]);
    } else {
      assert x + w == x;
    }
  }

  /** `trim` strips exactly the surrounding white space of a string with none inside its ends. */
  lemma TrimSurrounded(w1: string, x: string, w2: string)
    requires AllWhitespace(w1) && AllWhitespace(w2)
    requires Trimmed(x)
    ensures Trim(w1 + x + w2) == x
  {
    if x == [] {
      assert w1 + x + w2 == w1 + w2;
      assert AllWhitespace(w1 + w2);
      TrimStartPrefix(w1 + w2, []);
      assert w1 + w2 == (w1 + w2) + [];
    } else {
      assert w1 + x + w2 == w1 + (x + w2);
      TrimStartPrefix(w1, x + w2);
      TrimEndSuffix(x, w2);
    }
  }

  /** `trim` leaves an already trimmed string alone, so it is idempotent. */
  lemma TrimTrimmed(s: string)
    requires Trimmed(s)
    ensures Trim(s) == s
  {
    var none: string := [];
    assert none + s + none == s;
    assert AllWhitespace(none);
    TrimSurrounded(none, s, none);
  }

  /** ASCII `toLowerCase`; every other character is left as it is. */
  function LowerChar(c: char): char {
    if 'A' <= c <= 'Z' then (c as int + 32) as char else c
  }

  function Lower(s: string): (r: string)
    ensures |r| == |s|
    ensures forall i :: 0 <= i < |s| ==> r[i] == LowerChar(s[i])
  {
    seq(|s|, i requires 0 <= i < |s| => LowerChar(s[i]))
  }

  /** Lower-casing twice is lower-casing once. */
  lemma LowerIdempotent(s: string)
    ensures Lower(Lower(s)) == Lower(s)
  {
    forall i | 0 <= i < |s| ensures Lower(Lower(s))[i] == Lower(s)[i] {
      assert Lower(s)[i] == LowerChar(s[i]);
    }
  }

  /** `s.replace(pat, "")`: with a string pattern only the first occurrence goes. */
  function RemoveFirst(s: string, pat: string): (r: string)
    ensures (forall i :: !OccursAt(s, pat, i)) ==> r == s
    ensures forall i :: OccursAt(s, pat, i) && (forall j :: j < i ==> !OccursAt(s, pat, j))
                        ==> r == s[..i] + s[i + |pat|..]
    ensures |r| == |s| || |r| == |s| - |pat|
  {
    var i := IndexOf(s, pat);
    if i < 0 then s else s[..i] + s[i + |pat|..]
  }

  /** A leading copy of the pattern is the one `RemoveFirst` takes away. */
  lemma RemoveFirstLeading(pat: string, rest: string)
    ensures RemoveFirst(pat + rest, pat) == rest
  {
    assert OccursAt(pat + rest, pat, 0);
  }

  // ---------------------------------------------------------------------
  // Whole numbers as text

  /** The value of `c` as a digit in base `radix` (10 or 16), or -1 when it is not one. */
  function DigitValue(c: char, radix: nat): (d: int)
    requires radix == 10 || radix == 16
    ensures -1 <= d < radix
  {
    if '0' <= c <= '9' then c as int - '0' as int
    else if radix == 16 && 'a' <= c <= 'f' then c as int - 'a' as int + 10
    else if radix == 16 && 'A' <= c <= 'F' then c as int - 'A' as int + 10
    else -1
  }

  predicate AllDigits(s: string, radix: nat)
    requires radix == 10 || radix == 16
  {
    forall i :: 0 <= i < |s| ==> DigitValue(s[i], radix) >= 0
  }

  /** The number a string of digits denotes, most significant digit first. */
  function DigitsValue(s: string, radix: nat): nat
    requires radix == 10 || radix == 16
    requires AllDigits(s, radix)
  {
    if |s| == 0 then 0
    else DigitsValue(s[..|s| - 1], radix) * radix + DigitValue(s[|s| - 1], radix)
  }

  /** Length of the longest prefix of `s` made of digits in base `radix`. */
  function DigitRun(s: string, radix: nat): (n: nat)
    requires radix == 10 || radix == 16
    ensures n <= |s|
    ensures AllDigits(s[..n], radix)
    ensures n == |s| || DigitValue(s[n], radix) < 0
  {
    if |s| == 0 || DigitValue(s[0], radix) < 0 then 0
    else
      var n := 1 + DigitRun(s[1..], radix);
      assert s[..n] == [s[0]] + s[1..][..n - 1];
      n
  }

  /** The decimal digit for `d`. */
  function DigitChar(d: nat): (c: char)
    requires d < 10
    ensures DigitValue(c, 10) == d
  {
    ('0' as int + d) as char
  }

  /** `${n}` for a whole number: its decimal digits, without leading zeros. */
  function NatToString(n: nat): (r: string)
    ensures |r| >= 1
    ensures AllDigits(r, 10)
    ensures r[0] == '0' ==> n == 0
  {
    if n < 10 then [DigitChar(n)]
    else NatToString(n / 10) + [DigitChar(n % 10)]
  }

  /** Reading back the decimal rendering gives the number. */
  lemma {:induction false} NatToStringRoundTrip(n: nat)
    ensures DigitsValue(NatToString(n), 10) == n
  {
    if n >= 10 {
      var s := NatToString(n);
      assert s[..|s| - 1] == NatToString(n / 10);
      NatToStringRoundTrip(n / 10);
    }
  }

  /**
   * `parseInt(s)` with no radix: leading white space skipped, an optional sign,
   * then an unsigned number. `None` stands for `NaN` (no digit at all).
   */
  function ParseInt(s: string): (r: Option<int>)
    ensures AllWhitespace(s) ==> r.None?
    ensures r.Some? && r.value < 0 ==> TrimStart(s)[0] == '-'
  {
    var t := TrimStart(s);
    if |t| > 0 && t[0] == '-' then
      match ParseUnsigned(t[1..])
      case None => None
      case Some(m) => Some(-m)
    else if |t| > 0 && t[0] == '+' then ParseUnsigned(t[1..])
    else ParseUnsigned(t)
  }

  /**
   * The unsigned part of `parseInt`: a `0x`/`0X` prefix selects base 16, then
   * the longest run of digits is read and the rest is ignored.
   */
  function ParseUnsigned(u: string): (r: Option<int>)
    ensures r.Some? ==> r.value >= 0
  {
    var hex := |u| >= 2 && u[0] == '0' && (u[1] == 'x' || u[1] == 'X');
    var radix := if hex then 16 else 10;
    var v := if hex then u[2..] else u;
    var n := DigitRun(v, radix);
    if n == 0 then None else Some(DigitsValue(v[..n], radix))
  }

  /** A number typed as its decimal digits parses back to itself. */
  lemma ParseIntDecimal(n: nat)
    ensures ParseInt(NatToString(n)) == Some(n)
  {
    var s := NatToString(n);
    DigitsUntrimmed(s, "");
    assert s + "" == s;
    ParseUnsignedDecimal(n, "");
  }

  /** A fractional part after the decimal point is dropped: `parseInt("2.5")` is 2. */
  lemma ParseIntTruncates(n: nat, fraction: string)
    ensures ParseInt(NatToString(n) + "." + fraction) == Some(n)
  {
    var s := NatToString(n) + "." + fraction;
    assert s == NatToString(n) + ("." + fraction);
    DigitsUntrimmed(NatToString(n), "." + fraction);
    ParseUnsignedDecimal(n, "." + fraction);
  }

  /** Decimal digits followed by a non-digit (or nothing) read as their value. */
  lemma ParseUnsignedDecimal(n: nat, rest: string)
    requires rest == [] || DigitValue(rest[0], 10) < 0
    requires rest == [] || (rest[0] != 'x' && rest[0] != 'X')
    ensures ParseUnsigned(NatToString(n) + rest) == Some(n)
  {
    var d := NatToString(n);
    var s := d + rest;
    assert s[..|d|] == d;
    assert !(|s| >= 2 && s[0] == '0' && (s[1] == 'x' || s[1] == 'X')) by {
      if |s| >= 2 && s[0] == '0' {
        assert n == 0;
        assert d == "0";
        assert s[1] == rest[0];
      }
    }
    if rest == [] {
      assert s == d;
      DigitRunAll(s, 10);
    } else {
      assert s[|d|] == rest[0];
      DigitRunPrefix(s, |d|, 10);
    }
    NatToStringRoundTrip(n);
  }

  /** Nothing is trimmed from the front of a string that starts with a digit. */
  lemma DigitsUntrimmed(d: string, rest: string)
    requires |d| > 0 && AllDigits(d, 10)
    ensures TrimStart(d + rest) == d + rest
    ensures (d + rest)[0] != '-' && (d + rest)[0] != '+'
  {
    assert (d + rest)[0] == d[0];
    assert DigitValue(d[0], 10) >= 0;
  }

  /** A string made only of digits is its own digit run. */
  lemma {:induction false} DigitRunAll(s: string, radix: nat)
    requires radix == 10 || radix == 16
    requires AllDigits(s, radix)
    ensures DigitRun(s, radix) == |s|
    decreases |s|
  {
    if |s| > 0 {
      DigitRunAll(s[1..], radix);
    }
  }

  /** A digit prefix of length `k` followed by a non-digit is the digit run. */
  lemma {:induction false} DigitRunPrefix(s: string, k: nat, radix: nat)
    requires radix == 10 || radix == 16
    requires k < |s| && AllDigits(s[..k], radix) && DigitValue(s[k], radix) < 0
    ensures DigitRun(s, radix) == k
    decreases k
  {
    if k > 0 {
      assert s[0] == s[..k][0];
      assert s[1..][..k - 1] == s[1..k];
      DigitRunPrefix(s[1..], k - 1, radix);
    }
  }
}

=== FILE: wrappers.dfy ===
/** Optional values and results with an error, as used by every other module. */
module Wrappers {

  /** A value that may be absent: a JavaScript `null`/`undefined` or a missing key. */
  datatype Option<+T> = None | Some(value: T) {

    /** The value when present, `default` otherwise. */
    function GetOr(default: T): T {
      match this
      case Some(v) => v
      case None => default
    }
  }

  /** The outcome of a step that either yields a value or fails with an error. */
  datatype Result<+R, +E> = Success(value: R) | Failure(error: E)

  /** JavaScript truthiness of an optional string: present and not empty. */
  predicate Truthy(s: Option<string>) {
    s.Some? && s.value != ""
  }

  /** JavaScript truthiness of an optional number: present and not zero. */
  predicate TruthyNumber(n: Option<int>) {
    n.Some? && n.value != 0
  }
}
